=== FILE: README.md ===
# Restaurant table reservations — a Dafny model

This project models the bookkeeping core of a restaurant table-reservation backend. The backend keeps two
collections, tables and reservations. A customer books the first free table of the requested type that is
large enough, and that table turns `reserved`. A customer can edit, cancel and delete their own
reservations. An administrator manages the table registry and has privileged reservation paths that skip
every check. Around this core sit the account and password-reset lifecycle, the request guards that read the
`Authorization` header, and the login form's validator.

Every request handler is a pure function from a store to an `Outcome`: the handler's `Reply` (`Ok` or
`Fail` with an error standing for an HTTP status) together with the next store. Collections are sequences in
storage order, so a `findOne` is "the first match" (`Seqs.FirstIndex`). Each handler is one atomic step.

Modules, one per component:

- `Common`: ids, `Option`, the errors, `Reply` and `Outcome`.
- `Seqs`: first match, filter, count, fresh ids and string helpers.
- `Sorting`: insertion sort under any total preorder.
- `Schema`: the Table and User schemas, plus the reservation fields. Covers enums with their stored names, defaults and unique keys. The user record also carries the two reset paths the password-reset handlers assign. The declared User schema has neither path, so a store written under it keeps both empty (see Findings).
- `Store`: the two collections, lookups by id, and the invariant `Consistent`. A table is `reserved` exactly when one non-cancelled reservation is bound to it, and never more than one is.
- `Reservations`: the customer handlers. `Consistency` holds the lemmas saying which of them keep the invariant.
- `Registry`: table listing, add, edit and delete, from the tables controller and the admin controller.
- `Admin`: the administrator's reservation paths and the dashboard figures.
- `Accounts`: register, login, profile edit, and issuing and redeeming reset tokens.
- `Guards`: `protect`, `authorize` and the admin-only guard.
- `LoginForm`: `validateAuth`.

Environment inputs are parameters:
- Password hashing, password comparison and the SHA-256 digest are the function fields of `Accounts.Crypto`.
- JWT verification is a function from token to `Option<Claims>`.
- The clock is `now` or `today`.
- Whether the reset email was sent is the boolean `sent`.
- Fresh table and reservation ids come from the counter `issued` in the store. It only grows, so the id of a deleted document is never handed out again, as with MongoDB's ObjectIds. User ids come from `Seqs.NextId`, one more than the largest id in use; no operation here deletes a user.

Dates are whole numbers, such as 20240601. Times are strings, ordered by Unicode code point.

Some behaviour of the code is surprising; the model follows the code:
- Adding a table checks no lower bound on capacity.
- The admin table delete answers success for an unknown id.
- The admin "cancel" deletes the record outright and leaves its table `reserved`.
- Nothing makes creating a reservation atomic.

The reservation schema file is not part of this model. Its fields come from the controller that builds the
document (`user, date, time, guests, tableType, table, status`), plus the `createdAt` timestamp that the
dashboard sorts by. Its status values come from the admin page's status selector.

## Model

| member | source | states |
|---|---|---|
| Schema.ParseTableType | Restuarent_Reservations_Table-main/backend/models/Table.js:13-17 | a table type is accepted exactly when it is one of `indoor`, `outdoor`, `private`, and each accepted name denotes exactly one type |
| Schema.ParseTableStatus | Restuarent_Reservations_Table-main/backend/models/Table.js:18-22 | a table status is accepted exactly when it is `available`, `reserved` or `occupied` |
| Schema.ParseReservationStatus | Restuarent_Reservations_Table-main/frontend/src/pages/ReservationManagement.jsx:255-257 | a reservation status is one of `pending`, `confirmed`, `cancelled` |
| Schema.ParseRole | Restuarent_Reservations_Table-main/backend/models/User.js:7 | a role is `customer` or `admin` |
| Reservations.Create | Restuarent_Reservations_Table-main/backend/controllers/reservationController.js:4-35 | booking fails with no change at all exactly when no table has the requested type, is available and seats the party. Otherwise the first such table in storage order is bound. The new reservation is confirmed, belongs to the caller, takes the counter's id (which no stored reservation has when every stored id was issued before it) and is appended, and the counter grows past it. That table turns `reserved` and nothing else about the tables changes, so its `currentReservation` is never set |
| Reservations.ListMine | Restuarent_Reservations_Table-main/backend/controllers/reservationController.js:37-49 | the listing holds exactly the caller's reservations, each as often as stored, ordered by date and then by time |
| Reservations.SlotLeIsTotalPreorder | Restuarent_Reservations_Table-main/backend/controllers/reservationController.js:42 | ordering by date and then time is a total preorder, so the sorted listing is well defined up to ties |
| Reservations.Merge | Restuarent_Reservations_Table-main/backend/controllers/reservationController.js:78-81 | an edit replaces date, time, guests and table type only by truthy values: a missing field, an empty string or a zero keeps the stored value. Owner, table binding, status and creation time never change |
| Reservations.Update | Restuarent_Reservations_Table-main/backend/controllers/reservationController.js:51-90 | checks run in order: unknown id is not found, another caller is forbidden, then a conflict if any other non-cancelled reservation matches the requested date and time (whatever its table). A field the request leaves out does not constrain the match. Any failure leaves the store unchanged. Success writes the merged record and leaves every table unchanged |
| Reservations.UpdateMerged | Restuarent_Reservations_Table-main/backend/controllers/reservationController.js:66-83 | corrected edit: it conflicts exactly when the edit moves the reservation to another date or time and another non-cancelled reservation already holds that slot. An edit that keeps the reservation in its slot is accepted |
| Reservations.Cancel | Restuarent_Reservations_Table-main/backend/controllers/reservationController.js:92-119 | after the not-found and owner checks, the reservation becomes `cancelled` and keeps its binding. Every table with the bound id becomes `available` and all others are untouched. An already cancelled reservation goes through the same steps |
| Reservations.CancelOnce | Restuarent_Reservations_Table-main/backend/controllers/reservationController.js:106-112 | corrected cancel: the same answers as the original; identical on a live reservation; no change at all for one already cancelled, and none on any refusal |
| Reservations.Delete | Restuarent_Reservations_Table-main/backend/controllers/reservationController.js:121-146 | not found, then forbidden, then refused unless cancelled, each with no change. On success exactly that record is removed and no table changes |
| Consistency.CreatePreservesConsistency | Restuarent_Reservations_Table-main/backend/controllers/reservationController.js:9-28 | booking keeps every table `reserved` exactly when it has one live holder |
| Consistency.UpdatePreservesConsistency | Restuarent_Reservations_Table-main/backend/controllers/reservationController.js:78-83 | an owner's edit keeps the invariant |
| Consistency.UpdateMergedPreservesConsistency | Restuarent_Reservations_Table-main/backend/controllers/reservationController.js:66-83 | the corrected edit keeps the invariant |
| Consistency.CancelActivePreservesConsistency | Restuarent_Reservations_Table-main/backend/controllers/reservationController.js:106-112 | cancelling a reservation that is not yet cancelled (or an unknown id) keeps the invariant |
| Consistency.CancelOncePreservesConsistency | Restuarent_Reservations_Table-main/backend/controllers/reservationController.js:96-112 | the corrected cancel keeps the invariant for every input |
| Consistency.DeletePreservesConsistency | Restuarent_Reservations_Table-main/backend/controllers/reservationController.js:135-139 | deleting (only ever a cancelled record) keeps the invariant |
| Consistency.StaleCancelIsNotFound | Restuarent_Reservations_Table-main/backend/controllers/reservationController.js:106-139 | after a reservation is deleted and another booked, cancelling the deleted id answers not-found instead of reaching the new booking |
| Consistency.RepeatCancelBreaksConsistency | Restuarent_Reservations_Table-main/backend/controllers/reservationController.js:106-112 | re-cancelling a cancelled reservation whose table is reserved by someone else succeeds, frees the table and breaks the invariant |
| Consistency.RebookThenRepeatCancel | Restuarent_Reservations_Table-main/backend/controllers/reservationController.js:4-112 | a trace: book, cancel, another customer books the same table, first cancel repeated. The result is an `available` table under a confirmed booking |
| Consistency.BookingLifecycle | Restuarent_Reservations_Table-main/backend/controllers/reservationController.js:4-146 | one table: booked and reserved; a second party gets no table; cancelling frees it; deleting removes the record; a second delete is not found |
| Consistency.GuestOnlyEditRefused | Restuarent_Reservations_Table-main/backend/controllers/reservationController.js:66-76 | an edit that changes only the party size is refused as a conflict while another live reservation exists in another slot. The corrected edit accepts it |
| Consistency.SharedSlotEditRefused | Restuarent_Reservations_Table-main/backend/controllers/reservationController.js:67-76 | two customers booked the same slot on two tables. An edit that re-sends the stored date and time with a new party size, as the edit form does, is refused as written and accepted as corrected |
| Consistency.SameSlotEditAccepted | Restuarent_Reservations_Table-main/backend/controllers/reservationController.js:66 | the corrected edit accepts every owner's edit that leaves the date and time where they are |
| Registry.ListTables | Restuarent_Reservations_Table-main/backend/controllers/adminController.js:32-54 | results come from the registry. A given type other than `all` restricts every result to that type. A given search text occurs, ignoring case, in each result's number or type. Every table passing both filters is listed |
| Registry.UnfilteredListingIsAll | Restuarent_Reservations_Table-main/backend/controllers/tableController.js:3-11 | with no search text and no type (or `all`), the admin listing is every table in storage order, which is what `getAllTables` returns (`Registry.AllTables`) |
| Registry.AddTable | Restuarent_Reservations_Table-main/backend/controllers/tableController.js:13-23 | fails as a server error with no change exactly when the number is missing, the capacity is missing, the type is outside the enumeration, or the number is taken. Otherwise a table with the given number, capacity and type (default `indoor`) is appended, with the counter's id (which no stored table has when every stored id was issued before it), status `available` and no current reservation (the admin variant at adminController.js:56-65 is the same) |
| Registry.AddTableKeepsKeysDistinct | Restuarent_Reservations_Table-main/backend/models/Table.js:4-8 | adding keeps table numbers unique |
| Registry.ReaddedTableStaysUnbound | Restuarent_Reservations_Table-main/backend/controllers/tableController.js:47-61 | a table added after a delete never takes an id any earlier table had, so reservations left bound to the deleted table do not attach to it: it starts with no holder |
| Registry.UpdateTable | Restuarent_Reservations_Table-main/backend/controllers/tableController.js:25-45 | an unknown id is not found. A number another table has violates the unique index. Otherwise the given number, capacity, type and status are written over the table with no look at its reservations (the admin variant at adminController.js:77-97 is the same) |
| Registry.UpdateTableKeepsKeysDistinct | Restuarent_Reservations_Table-main/backend/controllers/tableController.js:30-34 | editing keeps table numbers unique |
| Registry.StatusOverwriteBreaksConsistency | Restuarent_Reservations_Table-main/backend/controllers/adminController.js:80-92 | overwriting a booked table's status to `available` succeeds and breaks the invariant |
| Registry.DeleteTable | Restuarent_Reservations_Table-main/backend/controllers/tableController.js:47-61 | an unknown id is not found with no change. Otherwise only that table is removed and the reservations are untouched |
| Registry.DeleteTableUnchecked | Restuarent_Reservations_Table-main/backend/controllers/adminController.js:67-75 | the admin delete answers success whether or not the table exists |
| Registry.DeleteTableLeavesDanglingBinding | Restuarent_Reservations_Table-main/backend/controllers/tableController.js:50-56 | after deleting a table, a reservation bound to it still names an id no table has |
| Admin.UpdateReservation | Restuarent_Reservations_Table-main/backend/controllers/adminController.js:112-126 | not found exactly when the id is unknown. Otherwise every field in the body is written as given, with no owner or slot check, and no table changes. An explicit `table: null` unbinds the reservation |
| Admin.UpdateReservationBreaksConsistency | Restuarent_Reservations_Table-main/backend/controllers/adminController.js:115 | setting a booked reservation's status to `cancelled` through the admin edit succeeds and leaves its table `reserved` with no live holder |
| Admin.CancelReservation | Restuarent_Reservations_Table-main/backend/controllers/adminController.js:128-140 | not found exactly when the id is unknown. Otherwise the record is removed outright and no table changes |
| Admin.CancelReservationBreaksConsistency | Restuarent_Reservations_Table-main/backend/controllers/adminController.js:131-135 | removing a live bound reservation leaves its table `reserved` with no holder |
| Admin.AssignTable | Restuarent_Reservations_Table-main/backend/controllers/adminController.js:142-158 | not found exactly when the reservation is unknown. Otherwise only its table binding changes, and the target table is neither checked nor changed |
| Admin.AssignTableBreaksConsistency | Restuarent_Reservations_Table-main/backend/controllers/adminController.js:146-150 | binding a live reservation to a free table leaves the table `available` while it is held |
| Admin.Recent | Restuarent_Reservations_Table-main/backend/controllers/adminController.js:15-18 | at most five reservations, fewer only when fewer exist, all stored, newest first, none newer than one left out |
| Admin.DashboardData | Restuarent_Reservations_Table-main/backend/controllers/adminController.js:5-30 | `availableTables` counts status `available` and `totalCustomers` counts role `customer`. "Today's" reservations, dated from the start of today, never outnumber all reservations |
| Accounts.Register | Restuarent_Reservations_Table-main/backend/controllers/authController.js:7-21 | a taken email is refused with no new user. A body without an email matches the first user, so it is refused whenever any user exists. A missing name or email fails validation. Otherwise one customer is appended whose stored password is the hash of the given one, with no reset token |
| Accounts.RegisterKeepsEmailsDistinct | Restuarent_Reservations_Table-main/backend/models/User.js:5 | registration keeps emails (and ids) unique |
| Accounts.Login | Restuarent_Reservations_Table-main/backend/controllers/authController.js:23-39 | succeeds exactly when the email finds a user and the password matches that user's hash. A body without an email finds the first user. The token payload is the user's id and role with a one-hour life, and the returned user carries no password. Every failure is `Invalid credentials` |
| Accounts.LoginFailureIsUniform | Restuarent_Reservations_Table-main/backend/controllers/authController.js:26-33 | an unknown email and a wrong password get identical answers |
| Accounts.LoginWithoutEmailIsFirstUser | Restuarent_Reservations_Table-main/backend/controllers/authController.js:25-34 | a login body without an email succeeds exactly when the password matches the first user's hash, and it then logs in as that user |
| Accounts.UpdateMe | Restuarent_Reservations_Table-main/backend/controllers/authController.js:51-70 | an unknown user is not found. An empty name or email keeps the stored one. An email another user has is refused. Otherwise only that user changes |
| Accounts.UpdateMeKeepsEmailsDistinct | Restuarent_Reservations_Table-main/backend/models/User.js:5 | profile edits keep emails unique |
| Accounts.ForgotPassword | Restuarent_Reservations_Table-main/backend/controllers/authController.js:96-142 | corrected handler, for a User schema that declares both reset paths. An unknown email is not found with no change. A body without an email picks the first user. Otherwise only that user's reset fields change. They hold the digest of the token, not the token, with expiry now plus 600000 ms. When the email fails, both are cleared and the answer is an error |
| Accounts.ResetPassword | Restuarent_Reservations_Table-main/backend/controllers/authController.js:144-186 | the lookup is the same as written; the store's contents decide the outcome. With no user holding the token's digest with an expiry strictly after now, the token is refused before the password is looked at. An empty password is then refused. Otherwise the first such user gets the hash of the new password and loses token and expiry |
| Accounts.ResetIsSingleUse | Restuarent_Reservations_Table-main/backend/controllers/authController.js:175-178 | for a schema that declares the reset paths: a token that has reset a password is refused ever after |
| Accounts.IssuedTokenWorksUntilExpiry | Restuarent_Reservations_Table-main/backend/controllers/authController.js:103-156 | for a schema that declares the reset paths: a freshly issued token redeems exactly while now is strictly before issue time plus ten minutes |
| Accounts.ForgotPasswordAsWritten | Restuarent_Reservations_Table-main/backend/controllers/authController.js:96-142 | the handler as written: the same answers as the corrected one (not found, email sent, email failed), but a save under the declared schema stores no reset path, so a store without them is left exactly as it was |
| Accounts.ResetRefusedAsWritten | Restuarent_Reservations_Table-main/backend/controllers/authController.js:153-167 | as written, the reset lookup filters on paths no stored user has, so every token is refused and nothing changes |
| Accounts.IssuedTokenNeverRedeemsAsWritten | Restuarent_Reservations_Table-main/backend/controllers/authController.js:109-112 | as written, a token issued with the email sent is refused at any time, even straight after issue |
| Accounts.AccountsKeepNoResetPaths | Restuarent_Reservations_Table-main/backend/models/User.js:3-9 | registration and profile edits store no reset path either, so every store written under the declared schema has none |
| Accounts.Saved | Restuarent_Reservations_Table-main/backend/models/User.js:3-9 | a save under the declared User schema keeps every declared path and drops both reset paths |
| Guards.JoinSplit | Restuarent_Reservations_Table-main/backend/middleware/auth.js:9 | splitting a header on spaces loses nothing: joining the pieces gives it back |
| Guards.SplitJoin | Restuarent_Reservations_Table-main/backend/middleware/auth.js:9 | space-free pieces joined with spaces split back into the same pieces |
| Guards.SecondField | Restuarent_Reservations_Table-main/backend/middleware/auth.js:9 | the direct scan finds a second piece exactly when splitting on spaces yields two or more, and it is that piece |
| Guards.BearerToken | Restuarent_Reservations_Table-main/backend/middleware/auth.js:8-10 | a token is found exactly when the header starts with `Bearer` and its second space-separated piece exists and is non-empty. The token is that piece |
| Guards.Protect | Restuarent_Reservations_Table-main/backend/middleware/auth.js:4-36 | no token gives 401, then a token failing verification gives 401, then a verified id with no user gives 404. Otherwise the request passes, carrying the decoded id and the stored role |
| Guards.Authorize | Restuarent_Reservations_Table-main/backend/middleware/auth.js:38-45 | a passing request is refused with 403 exactly when its role is not listed, and otherwise passes unchanged |
| Guards.AdminGuard | Restuarent_Reservations_Table-main/backend/middleware/adminAuth.js:3-18 | a missing header, missing token or failed verification gives 401, and a verified non-admin gives 403. An admin passes with the id and role from the token |
| Guards.AdminGuardIgnoresScheme | Restuarent_Reservations_Table-main/backend/middleware/adminAuth.js:5 | the admin-only guard takes a header with any scheme word; the same header gives 401 from `protect` |
| Guards.AdminGuardTrustsTokenRole | Restuarent_Reservations_Table-main/backend/middleware/adminAuth.js:6-10 | an admin role in the token passes the admin-only guard even when the stored role is customer, which `authorize` refuses |
| LoginForm.LooksLikeEmailIsPattern | Restuarent_Reservations_Table-main/frontend/src/pages/Login.jsx:18 | the executable email test holds exactly when `\S+@\S+\.\S+` occurs somewhere in the text |
| LoginForm.ValidateAuth | Restuarent_Reservations_Table-main/frontend/src/pages/Login.jsx:13-28 | empty email: required. Non-empty email without the pattern: invalid. Empty password: required. Password shorter than 6: too short. The two errors are independent, and the result is empty exactly when the pattern occurs and the password has at least 6 characters |

## Findings

| source | as written | input that shows it | evidently intended | confidence | as-written member | corrected member |
|---|---|---|---|---|---|---|
| Restuarent_Reservations_Table-main/backend/controllers/reservationController.js:106-112 | cancel frees the bound table even when the reservation was already cancelled | user 7 books table 1 and cancels; user 8 books table 1; user 7 presses the trash button, which the reservations page shows only on cancelled reservations. It issues `DELETE /reservations/:id`, which routes/reservations.js:18 maps to cancel | a cancelled reservation holds no table, so cancelling it again frees nothing | high; not executed | Reservations.Cancel, exhibited by Consistency.RebookThenRepeatCancel and Consistency.RepeatCancelBreaksConsistency | Reservations.CancelOnce, with Consistency.CancelOncePreservesConsistency |
| Restuarent_Reservations_Table-main/backend/controllers/reservationController.js:67-76 | the conflict query uses the request's date and time and never asks whether the edit moves the reservation. A field left out drops out of the filter, so any other live reservation matches. Another booking in the reservation's own slot always matches | (a) reservations 0 (user 7, 20240601 19:00) and 1 (user 8, 20240602 20:00), both confirmed; user 7 sends only `guests: 3`. (b) both bookings at 20240601 19:00 on two tables; user 7 edits the party size in the edit form, which re-sends the stored date and time (frontend/src/pages/UserReservations.jsx:48) | check for a clash only when the edit moves the reservation, and then against the slot it moves to | (a) medium, since it rests on the query layer dropping undefined filter keys; (b) high; not executed | Reservations.Update, exhibited by Consistency.GuestOnlyEditRefused and Consistency.SharedSlotEditRefused | Reservations.UpdateMerged, with Consistency.SameSlotEditAccepted and Consistency.UpdateMergedPreservesConsistency |
| Restuarent_Reservations_Table-main/backend/controllers/authController.js:109-110 | the token digest and expiry are assigned to paths that models/User.js:3-9 does not declare. The strict schema drops them on save, and the lookup at lines 153-156 filters on the same paths | any user asks for a reset, the email is sent, and the emailed token is used at once | the User schema declares `resetPasswordToken` and `resetPasswordExpire`, so the digest and expiry are stored and the token redeems for ten minutes | medium; not executed. When unknown filter paths are passed on (the default outside Mongoose 6), no user matches. When they are stripped, the first user matches any token | Accounts.ForgotPasswordAsWritten, exhibited by Accounts.IssuedTokenNeverRedeemsAsWritten and Accounts.ResetRefusedAsWritten | Accounts.ForgotPassword with Accounts.ResetPassword, and Accounts.IssuedTokenWorksUntilExpiry |

## Left out

- Database access is not modelled: queries, `populate`, index builds and error objects. Each handler is one atomic step over in-memory sequences, and unexpected exceptions (the generic 500 answers) are not modelled.
- The double-booking race is not modelled. Two concurrent bookings can both pick the same table between the query and the save, but that needs interleavings, which a sequential model does not have.
- Cryptography and randomness are not modelled. bcrypt (with its random salt), SHA-256, `randomBytes` and JWT signing and verification are parameters. A login returns the token's claims and lifetime instead of a signed token.
- The clock is not modelled: `Date.now()` and the local-time `setHours(0, 0, 0, 0)` are the parameters `now` and `today`.
- Email sending is not modelled. Only its success or failure, the flag `sent`, reaches the model; the message and reset URL do not.
- Profile picture upload, `getMe`, the admin `getReservations` listing and the customer controller are not modelled. They read or write a record with nothing to decide beyond a 404.
- The route files are not modelled. They are request wiring. The reservations router maps DELETE to cancel, and the separate router holding the owner's hard delete is never exported, so `Reservations.Delete` is not reachable over HTTP.
- The frontend is not modelled, apart from `validateAuth`. That covers the pages, the context, the navigation bar and the HTTP client.
- Registry.ListTables: the search text is matched literally with ASCII case folding. A search containing regular-expression syntax, or non-ASCII case folding, is not modelled.
- Registry.UpdateTable: the edit path runs no schema validators in the source, so an out-of-enum type or status string could be stored. The model's enumerated types cannot hold such a value.
- Admin.UpdateReservation: body keys outside the reservation's fields, such as `_id` or `createdAt`, are not modelled. A `null` for a field other than `table` is not modelled either.
- Accounts.ForgotPassword: models a User schema that declares `resetPasswordToken` and `resetPasswordExpire`. The declared schema does not, and the handler as written is `Accounts.ForgotPasswordAsWritten` (see Findings).
- Accounts.ResetPassword: over a store written under the declared schema, it refuses every token (`Accounts.ResetRefusedAsWritten`). This is the reading where unknown filter paths are passed on to the database. The other reading, where they are stripped and the first user matches any token, is not modelled.
- Accounts.ResetIsSingleUse: holds for the corrected schema only. As written, no token ever redeems, so single use holds trivially.
- Accounts.IssuedTokenWorksUntilExpiry: holds for the corrected schema only. As written, an issued token never redeems (`Accounts.IssuedTokenNeverRedeemsAsWritten`).
- Admin.AssignTable: a request with no `tableId`, which leaves the binding as it is, is not modelled.
- Reservations.Create: a body without `tableType` drops the type from the table query, so the first available table of any type that seats the party would be picked. Whether the reservation then saves depends on the reservation schema, which is not part of this model. The model takes the type as a string, and a missing one matches no table.
- Request values are not cast: dates are whole numbers and times are strings. A missing email is modelled as an absent value; other missing string fields are modelled as empty strings.
- Reservations.Update: a field that is present but falsy (`""`, `0`) still takes part in the conflict filter but keeps the stored value in the merge. A `null` date or time is not distinguished from an absent one. A date is a whole number, so the falsy `0` stands for a JSON `0`; the epoch date itself cannot be told apart from it.
- LoginForm.ValidateAuth: length is counted in Unicode scalar values, not UTF-16 code units. A password with characters outside the Basic Multilingual Plane can therefore differ from the browser's count.

=== FILE: accounts.dfy ===
/** Accounts: registration, login, profile edits and the password-reset
    token lifecycle over the users collection. Hashing is left
    uninterpreted and the clock is a parameter. */
module Accounts {
  import opened Common
  import opened Seqs
  import opened Schema

  /** The cryptographic primitives: password hashing and comparison, and the
      digest under which a reset token is stored. */
  datatype Crypto = Crypto(
    hashPassword: string -> string,
    passwordMatches: (string, string) -> bool,
    digest: string -> string)

  /** A reset token stays valid for ten minutes, in milliseconds. */
  const ResetWindow: int := 10 * 60 * 1000

  /** A login session lasts one hour, in seconds. */
  const SessionLifetime: nat := 3600

  /** `findOne({ email })` with the email taken from the request body. A
      body without it leaves the key undefined, the key drops out of the
      filter, and the first user matches. */
  function UserWithEmail(us: seq<User>, email: Option<string>): (r: Option<nat>)
    ensures email.Some? ==> (r.None? <==> forall k :: 0 <= k < |us| ==> us[k].email != email.value)
    ensures email.None? ==> r == (if |us| == 0 then None else Some(0))
    ensures r.Some? ==> r.value < |us| && (email.Some? ==> us[r.value].email == email.value)
  {
    FirstIndex(us, (u: User) => email.None? || u.email == email.value)
  }

  /** A body field that is present and non-empty, as a `required` string
      path demands. */
  predicate Given(s: Option<string>)
  {
    s.Some? && s.value != ""
  }

  function UserWithId(us: seq<User>, id: Id): Option<nat>
  {
    FirstWithId(us, (u: User) => u.id, id)
  }

  /** Creating an account: a taken email is refused; a missing name or email
      fails schema validation; otherwise a customer is added whose stored
      password is the hash of the one given. */
  function Register(us: seq<User>, name: string, email: Option<string>, password: string, crypto: Crypto)
    : (r: Outcome<(), seq<User>>)
    ensures r.reply.Fail? ==> r.next == us
    ensures UserWithEmail(us, email).Some? ==> r.reply == Fail(UserExists)
    ensures UserWithEmail(us, email).None? && (name == "" || !Given(email) || crypto.hashPassword(password) == "")
            ==> r.reply == Fail(ServerError)
    ensures r.reply.Ok? ==>
      && UserWithEmail(us, email).None?
      && |r.next| == |us| + 1 && r.next[..|us|] == us
      && var u := r.next[|us|];
      && Given(email) && u.name == name && u.email == email.value && u.password == crypto.hashPassword(password)
      && u.role == DefaultRole && u.resetToken == None && u.resetExpire == None
      && forall k :: 0 <= k < |us| ==> us[k].id != u.id
    ensures UserWithEmail(us, email).None? && name != "" && Given(email) && crypto.hashPassword(password) != ""
            ==> r.reply == Ok(())
  {
    if UserWithEmail(us, email).Some? then Outcome(Fail(UserExists), us)
    else
      var hash := crypto.hashPassword(password);
      if name == "" || !Given(email) || hash == "" then Outcome(Fail(ServerError), us)
      else
        var u := NewUser(NextId(us, (x: User) => x.id), name, email.value, hash);
        assert (us + [u])[..|us|] == us;
        Outcome(Ok(()), us + [u])
  }

  lemma RegisterKeepsEmailsDistinct(us: seq<User>, name: string, email: Option<string>, password: string, crypto: Crypto)
    requires DistinctEmails(us) && DistinctUserIds(us)
    ensures DistinctEmails(Register(us, name, email, password, crypto).next)
    ensures DistinctUserIds(Register(us, name, email, password, crypto).next)
  {
  }

  /** The JWT payload. */
  datatype Claims = Claims(id: Id, role: Role)

  /** The user as a login returns it: the password hash is not part of it. */
  datatype PublicUser = PublicUser(id: Id, name: string, email: string, role: Role)

  datatype Session = Session(claims: Claims, expiresIn: nat, user: PublicUser)

  /** Logging in: an unknown email and a wrong password get the same answer. */
  function Login(us: seq<User>, email: Option<string>, password: string, crypto: Crypto): (r: Reply<Session>)
    ensures r.Fail? ==> r.err == InvalidCredentials
    ensures r.Ok? <==>
      UserWithEmail(us, email).Some? && crypto.passwordMatches(password, us[UserWithEmail(us, email).value].password)
    ensures r.Ok? ==>
      var u := us[UserWithEmail(us, email).value];
      && r.value.claims == Claims(u.id, u.role)
      && r.value.expiresIn == SessionLifetime
      && r.value.user == PublicUser(u.id, u.name, u.email, u.role)
  {
    match UserWithEmail(us, email)
    case None => Fail(InvalidCredentials)
    case Some(i) =>
      var u := us[i];
      if !crypto.passwordMatches(password, u.password) then Fail(InvalidCredentials)
      else Ok(Session(Claims(u.id, u.role), SessionLifetime, PublicUser(u.id, u.name, u.email, u.role)))
  }

  /** A caller cannot tell an unknown email from a wrong password. */
  lemma LoginFailureIsUniform(us: seq<User>, unknown: Option<string>, p1: string, known: Option<string>, p2: string, crypto: Crypto)
    requires UserWithEmail(us, unknown).None?
    requires UserWithEmail(us, known).Some?
    requires !crypto.passwordMatches(p2, us[UserWithEmail(us, known).value].password)
    ensures Login(us, unknown, p1, crypto) == Login(us, known, p2, crypto) == Fail(InvalidCredentials)
  {
  }

  /** A login body without an email is checked against the first user's
      password, and logs in as that user when it matches. */
  lemma LoginWithoutEmailIsFirstUser(us: seq<User>, password: string, crypto: Crypto)
    ensures Login(us, None, password, crypto).Ok? <==> |us| > 0 && crypto.passwordMatches(password, us[0].password)
    ensures Login(us, None, password, crypto).Ok? ==> Login(us, None, password, crypto).value.claims.id == us[0].id
  {
  }

  /** Editing one's own profile: a missing or empty name or email keeps the
      stored one; an email another user has violates the unique index. */
  function UpdateMe(us: seq<User>, id: Id, name: string, email: string): (r: Outcome<User, seq<User>>)
    ensures r.reply.Fail? ==> r.next == us
    ensures UserWithId(us, id).None? ==> r.reply == Fail(NotFound)
    ensures UserWithId(us, id).Some? ==>
      var i := UserWithId(us, id).value;
      var u := us[i].(name := if name != "" then name else us[i].name,
                      email := if email != "" then email else us[i].email);
      && ((exists k :: 0 <= k < |us| && us[k].id != id && us[k].email == u.email) ==> r.reply == Fail(ServerError))
      && ((forall k :: 0 <= k < |us| && us[k].id != id ==> us[k].email != u.email) ==>
            r.reply == Ok(u) && r.next == us[i := u])
  {
    match UserWithId(us, id)
    case None => Outcome(Fail(NotFound), us)
    case Some(i) =>
      var u := us[i].(name := if name != "" then name else us[i].name,
                      email := if email != "" then email else us[i].email);
      if FirstIndex(us, (x: User) => x.id != id && x.email == u.email).Some? then Outcome(Fail(ServerError), us)
      else Outcome(Ok(u), us[i := u])
  }

  lemma UpdateMeKeepsEmailsDistinct(us: seq<User>, id: Id, name: string, email: string)
    requires DistinctEmails(us) && DistinctUserIds(us)
    ensures DistinctEmails(UpdateMe(us, id, name, email).next)
    ensures DistinctUserIds(UpdateMe(us, id, name, email).next)
  {
    var r := UpdateMe(us, id, name, email);
    if r.reply.Ok? {
      var i := UserWithId(us, id).value;
      forall a, b | 0 <= a < b < |r.next| ensures r.next[a].email != r.next[b].email {
        if a == i {
          assert us[b].id != id;
        } else if b == i {
          assert us[a].id != id;
        }
      }
    }
  }

  /** Issuing a reset token: its digest and an expiry ten minutes after
      `now` are stored, never the token itself. When the email carrying the
      token cannot be sent both fields are cleared again. */
  function ForgotPassword(us: seq<User>, email: Option<string>, token: string, now: int, sent: bool, crypto: Crypto)
    : (r: Outcome<(), seq<User>>)
    ensures UserWithEmail(us, email).None? ==> r == Outcome(Fail(NotFound), us)
    ensures UserWithEmail(us, email).Some? ==>
      var i := UserWithEmail(us, email).value;
      && |r.next| == |us|
      && (forall k :: 0 <= k < |us| && k != i ==> r.next[k] == us[k])
      && r.next[i] == us[i].(resetToken := r.next[i].resetToken, resetExpire := r.next[i].resetExpire)
      && (sent ==> r.reply == Ok(()) && r.next[i].resetToken == Some(crypto.digest(token))
                   && r.next[i].resetExpire == Some(now + ResetWindow))
      && (!sent ==> r.reply == Fail(EmailNotSent) && r.next[i].resetToken == None && r.next[i].resetExpire == None)
  {
    match UserWithEmail(us, email)
    case None => Outcome(Fail(NotFound), us)
    case Some(i) =>
      if sent then
        Outcome(Ok(()), us[i := us[i].(resetToken := Some(crypto.digest(token)), resetExpire := Some(now + ResetWindow))])
      else
        Outcome(Fail(EmailNotSent), us[i := us[i].(resetToken := None, resetExpire := None)])
  }

  /** The user document as a save stores it under the declared user schema:
      that schema is strict and has no reset paths, so whatever the handler
      assigned to them is dropped. */
  function Saved(u: User): (s: User)
    ensures s.resetToken == None && s.resetExpire == None
    ensures s.(resetToken := u.resetToken, resetExpire := u.resetExpire) == u
  {
    u.(resetToken := None, resetExpire := None)
  }

  /** No stored user carries a reset path: every store written under the
      declared user schema. */
  predicate NoResetPaths(us: seq<User>)
  {
    forall k :: 0 <= k < |us| ==> us[k].resetToken == None && us[k].resetExpire == None
  }

  /** Issuing a reset token as the handler is written: the same steps and
      answers as `ForgotPassword`, but the save keeps only declared paths, so
      neither the digest nor the expiry reaches the store. */
  function ForgotPasswordAsWritten(us: seq<User>, email: Option<string>, token: string, now: int, sent: bool, crypto: Crypto)
    : (r: Outcome<(), seq<User>>)
    ensures UserWithEmail(us, email).None? ==> r.reply == Fail(NotFound)
    ensures UserWithEmail(us, email).Some? && sent ==> r.reply == Ok(())
    ensures UserWithEmail(us, email).Some? && !sent ==> r.reply == Fail(EmailNotSent)
    ensures NoResetPaths(us) ==> r.next == us
  {
    var o := ForgotPassword(us, email, token, now, sent, crypto);
    match UserWithEmail(us, email)
    case None => o
    case Some(i) => Outcome(o.reply, us[i := Saved(o.next[i])])
  }

  /** The user holds the digest `hash` with an expiry strictly after `now`. */
  predicate TokenValid(u: User, hash: string, now: int)
  {
    u.resetToken == Some(hash) && u.resetExpire.Some? && u.resetExpire.value > now
  }

  /** Redeeming a reset token: the first user holding its digest unexpired
      gets the new password and loses the token. The token is judged before
      the new password is looked at. */
  function ResetPassword(us: seq<User>, token: string, password: string, now: int, crypto: Crypto)
    : (r: Outcome<(), seq<User>>)
    ensures r.reply.Fail? ==> r.next == us
    ensures (forall k :: 0 <= k < |us| ==> !TokenValid(us[k], crypto.digest(token), now))
            ==> r.reply == Fail(InvalidToken)
    ensures (exists k :: 0 <= k < |us| && TokenValid(us[k], crypto.digest(token), now)) && password == ""
            ==> r.reply == Fail(PasswordRequired)
    ensures r.reply.Ok? ==>
      && password != ""
      && exists i :: 0 <= i < |us| && TokenValid(us[i], crypto.digest(token), now)
           && (forall k :: 0 <= k < i ==> !TokenValid(us[k], crypto.digest(token), now))
           && r.next == us[i := us[i].(password := crypto.hashPassword(password), resetToken := None, resetExpire := None)]
    ensures (exists k :: 0 <= k < |us| && TokenValid(us[k], crypto.digest(token), now)) && password != ""
            ==> r.reply == Ok(())
  {
    var hash := crypto.digest(token);
    match FirstIndex(us, (u: User) => TokenValid(u, hash, now))
    case None => Outcome(Fail(InvalidToken), us)
    case Some(i) =>
      if password == "" then Outcome(Fail(PasswordRequired), us)
      else Outcome(Ok(()), us[i := us[i].(password := crypto.hashPassword(password), resetToken := None, resetExpire := None)])
  }

  /** When no two users hold the same token digest, a token that reset a
      password once is refused every later time. */
  lemma ResetIsSingleUse(us: seq<User>, token: string, p1: string, now: int, p2: string, later: int, crypto: Crypto)
    requires forall a, b :: 0 <= a < b < |us| && us[a].resetToken == Some(crypto.digest(token))
               ==> us[b].resetToken != Some(crypto.digest(token))
    requires ResetPassword(us, token, p1, now, crypto).reply.Ok?
    ensures ResetPassword(ResetPassword(us, token, p1, now, crypto).next, token, p2, later, crypto).reply
            == Fail(InvalidToken)
  {
    var h := crypto.digest(token);
    var us' := ResetPassword(us, token, p1, now, crypto).next;
    var i :| 0 <= i < |us| && TokenValid(us[i], h, now)
             && us' == us[i := us[i].(password := crypto.hashPassword(p1), resetToken := None, resetExpire := None)];
    forall k | 0 <= k < |us'| ensures !TokenValid(us'[k], h, later) {
      if k < i {
        assert us[k].resetToken != Some(h);
      } else if k > i {
        assert us[i].resetToken == Some(h);
      }
    }
  }

  /** A freshly issued token works exactly until its expiry, strictly. */
  lemma IssuedTokenWorksUntilExpiry(us: seq<User>, email: Option<string>, token: string, issued: int,
                                    password: string, now: int, crypto: Crypto)
    requires UserWithEmail(us, email).Some?
    requires forall k :: 0 <= k < |us| && k != UserWithEmail(us, email).value
               ==> us[k].resetToken != Some(crypto.digest(token))
    requires password != ""
    ensures
      var issuedState := ForgotPassword(us, email, token, issued, true, crypto).next;
      ResetPassword(issuedState, token, password, now, crypto).reply.Ok? <==> now < issued + ResetWindow
  {
    var i := UserWithEmail(us, email).value;
    var us' := ForgotPassword(us, email, token, issued, true, crypto).next;
    var h := crypto.digest(token);
    if now < issued + ResetWindow {
      assert TokenValid(us'[i], h, now);
    } else {
      forall k | 0 <= k < |us'| ensures !TokenValid(us'[k], h, now) {
        if k != i { assert us'[k] == us[k]; }
      }
    }
  }

  /** As written, no stored user can match the reset lookup, which filters on
      the two undeclared paths: every token is refused and nothing changes. */
  lemma ResetRefusedAsWritten(us: seq<User>, token: string, password: string, now: int, crypto: Crypto)
    requires NoResetPaths(us)
    ensures ResetPassword(us, token, password, now, crypto) == Outcome(Fail(InvalidToken), us)
  {
    forall k | 0 <= k < |us| ensures !TokenValid(us[k], crypto.digest(token), now) {
      assert us[k].resetToken == None;
    }
  }

  /** As written, a token that was issued and emailed never redeems, however
      soon it is used. */
  lemma IssuedTokenNeverRedeemsAsWritten(us: seq<User>, email: Option<string>, token: string, issued: int,
                                         password: string, now: int, crypto: Crypto)
    requires NoResetPaths(us)
    requires UserWithEmail(us, email).Some?
    ensures ForgotPasswordAsWritten(us, email, token, issued, true, crypto).reply == Ok(())
    ensures
      var issuedState := ForgotPasswordAsWritten(us, email, token, issued, true, crypto).next;
      ResetPassword(issuedState, token, password, now, crypto).reply == Fail(InvalidToken)
  {
    ResetRefusedAsWritten(us, token, password, now, crypto);
  }

  /** The other account handlers also store no reset path, so a store written
      under the declared schema stays that way. */
  lemma AccountsKeepNoResetPaths(us: seq<User>, id: Id, name: string, given: Option<string>, email: string,
                                 password: string, crypto: Crypto)
    requires NoResetPaths(us)
    ensures NoResetPaths(Register(us, name, given, password, crypto).next)
    ensures NoResetPaths(UpdateMe(us, id, name, email).next)
  {
  }
}

=== FILE: admin.dfy ===
/** The administrator's reservation paths and the dashboard figures. These
    paths skip the owner and slot checks and never touch a table's status. */
module Admin {
  import opened Common
  import opened Seqs
  import opened Sorting
  import opened Schema
  import opened Store

  /** The body of an administrator's edit; `None` is a field the body leaves
      out. Every field present is written as given, falsy or not. For the
      table binding, `Some(None)` is an explicit `null`, which unbinds. */
  datatype Override = Override(
    user: Option<Id>,
    date: Option<int>,
    time: Option<string>,
    guests: Option<int>,
    tableType: Option<string>,
    table: Option<Option<Id>>,
    status: Option<ReservationStatus>)

  function Overridden(b: Reservation, o: Override): (m: Reservation)
    ensures m.id == b.id && m.createdAt == b.createdAt
    ensures o.user.Some? ==> m.user == o.user.value
    ensures o.user.None? ==> m.user == b.user
    ensures o.date.Some? ==> m.date == o.date.value
    ensures o.date.None? ==> m.date == b.date
    ensures o.time.Some? ==> m.time == o.time.value
    ensures o.time.None? ==> m.time == b.time
    ensures o.guests.Some? ==> m.guests == o.guests.value
    ensures o.guests.None? ==> m.guests == b.guests
    ensures o.tableType.Some? ==> m.tableType == o.tableType.value
    ensures o.tableType.None? ==> m.tableType == b.tableType
    ensures o.table.Some? ==> m.table == o.table.value
    ensures o.table.None? ==> m.table == b.table
    ensures o.status.Some? ==> m.status == o.status.value
    ensures o.status.None? ==> m.status == b.status
  {
    b.(user := if o.user.Some? then o.user.value else b.user,
       date := if o.date.Some? then o.date.value else b.date,
       time := if o.time.Some? then o.time.value else b.time,
       guests := if o.guests.Some? then o.guests.value else b.guests,
       tableType := if o.tableType.Some? then o.tableType.value else b.tableType,
       table := if o.table.Some? then o.table.value else b.table,
       status := if o.status.Some? then o.status.value else b.status)
  }

  /** The administrator's edit: not found, or the body applied wholesale. */
  function UpdateReservation(db: Db, id: Id, o: Override): (r: Outcome<Reservation, Db>)
    ensures r.next.tables == db.tables
    ensures ReservationAt(db.reservations, id).None? <==> r.reply == Fail(NotFound)
    ensures ReservationAt(db.reservations, id).None? ==> r.next == db
    ensures ReservationAt(db.reservations, id).Some? ==>
      var i := ReservationAt(db.reservations, id).value;
      && r.reply == Ok(Overridden(db.reservations[i], o))
      && r.next.reservations == db.reservations[i := Overridden(db.reservations[i], o)]
  {
    match ReservationAt(db.reservations, id)
    case None => Outcome(Fail(NotFound), db)
    case Some(i) =>
      var m := Overridden(db.reservations[i], o);
      Outcome(Ok(m), db.(reservations := db.reservations[i := m]))
  }

  /** The administrator's "cancel": the record is deleted outright and its
      table keeps whatever status it had. */
  function CancelReservation(db: Db, id: Id): (r: Outcome<(), Db>)
    ensures r.next.tables == db.tables
    ensures ReservationAt(db.reservations, id).None? <==> r.reply == Fail(NotFound)
    ensures ReservationAt(db.reservations, id).None? ==> r.next == db
    ensures ReservationAt(db.reservations, id).Some? ==>
      r.reply == Ok(()) && r.next.reservations == RemoveAt(db.reservations, ReservationAt(db.reservations, id).value)
  {
    match ReservationAt(db.reservations, id)
    case None => Outcome(Fail(NotFound), db)
    case Some(i) => Outcome(Ok(()), db.(reservations := RemoveAt(db.reservations, i)))
  }

  /** Binds a reservation to a table id; the table is neither looked up nor
      changed, so its existence, status, capacity and type go unchecked. */
  function AssignTable(db: Db, id: Id, tableId: Id): (r: Outcome<Reservation, Db>)
    ensures r.next.tables == db.tables
    ensures ReservationAt(db.reservations, id).None? <==> r.reply == Fail(NotFound)
    ensures ReservationAt(db.reservations, id).None? ==> r.next == db
    ensures ReservationAt(db.reservations, id).Some? ==>
      var i := ReservationAt(db.reservations, id).value;
      var b := db.reservations[i].(table := Some(tableId));
      r.reply == Ok(b) && r.next.reservations == db.reservations[i := b]
  {
    match ReservationAt(db.reservations, id)
    case None => Outcome(Fail(NotFound), db)
    case Some(i) =>
      var b := db.reservations[i].(table := Some(tableId));
      Outcome(Ok(b), db.(reservations := db.reservations[i := b]))
  }

  datatype Dashboard = Dashboard(
    totalReservations: nat,
    todayReservations: nat,
    totalCustomers: nat,
    availableTables: nat,
    recent: seq<Reservation>)

  const RecentLimit: nat := 5

  /** Newest first: by creation time, latest first. */
  predicate NewerFirst(a: Reservation, b: Reservation)
  {
    a.createdAt >= b.createdAt
  }

  lemma NewerFirstIsTotalPreorder()
    ensures TotalPreorder(NewerFirst)
  {
  }

  /** The five newest reservations, newest first: no reservation left out is
      newer than one listed. */
  function Recent(rs: seq<Reservation>): (r: seq<Reservation>)
    ensures |r| == if |rs| < RecentLimit then |rs| else RecentLimit
    ensures multiset(r) <= multiset(rs)
    ensures Sorted(r, NewerFirst)
    ensures forall y, x :: y in r && x in multiset(rs) - multiset(r) ==> x.createdAt <= y.createdAt
  {
    var sorted := SortNewestFirst(rs);
    assert |sorted| == |multiset(sorted)| == |multiset(rs)| == |rs|;
    var n := if |sorted| < RecentLimit then |sorted| else RecentLimit;
    NewestPrefix(rs, sorted, n);
    sorted[..n]
  }

  function SortNewestFirst(rs: seq<Reservation>): (r: seq<Reservation>)
    ensures multiset(r) == multiset(rs)
    ensures Sorted(r, NewerFirst)
  {
    NewerFirstIsTotalPreorder();
    Sort(rs, NewerFirst)
  }

  lemma NewestPrefix(rs: seq<Reservation>, sorted: seq<Reservation>, n: nat)
    requires multiset(sorted) == multiset(rs) && Sorted(sorted, NewerFirst) && n <= |sorted|
    ensures multiset(sorted[..n]) <= multiset(rs)
    ensures Sorted(sorted[..n], NewerFirst)
    ensures forall y, x :: y in sorted[..n] && x in multiset(rs) - multiset(sorted[..n]) ==> x.createdAt <= y.createdAt
  {
    PrefixPrecedesRest(sorted, NewerFirst, n);
  }

  /** The dashboard figures; `today` is the first instant of the current day,
      and "today's" reservations are all those dated from then on. */
  function DashboardData(db: Db, users: seq<User>, today: int): (d: Dashboard)
    ensures d.totalReservations == |db.reservations|
    ensures d.todayReservations == Count(db.reservations, (x: Reservation) => x.date >= today)
    ensures d.todayReservations <= d.totalReservations
    ensures d.totalCustomers == Count(users, (u: User) => u.role == Customer)
    ensures d.totalCustomers <= |users|
    ensures d.availableTables == Count(db.tables, (t: Table) => t.status == Available)
    ensures d.availableTables <= |db.tables|
    ensures d.recent == Recent(db.reservations)
  {
    Dashboard(
      |db.reservations|,
      Count(db.reservations, (x: Reservation) => x.date >= today),
      Count(users, (u: User) => u.role == Customer),
      Count(db.tables, (t: Table) => t.status == Available),
      Recent(db.reservations))
  }

  /** Deleting a booked reservation through the admin path leaves its table
      `reserved` with nothing bound to it. */
  lemma CancelReservationBreaksConsistency(db: Db, id: Id, j: nat)
    requires Consistent(db)
    requires ReservationAt(db.reservations, id).Some?
    requires j < |db.tables| && Holds(db.reservations[ReservationAt(db.reservations, id).value], db.tables[j].id)
    ensures
      var r := CancelReservation(db, id);
      && r.reply == Ok(())
      && r.next.tables[j].status == Reserved
      && Holders(r.next.reservations, db.tables[j].id) == 0
      && !Consistent(r.next)
  {
    var i := ReservationAt(db.reservations, id).value;
    HoldersRemove(db.reservations, i, db.tables[j].id);
    assert Agrees(db.reservations, db.tables[j]);
  }

  /** Setting a booked reservation's status to `cancelled` through the admin
      edit leaves its table `reserved` with nothing live bound to it. */
  lemma UpdateReservationBreaksConsistency(db: Db, id: Id, j: nat)
    requires Consistent(db)
    requires ReservationAt(db.reservations, id).Some?
    requires j < |db.tables| && Holds(db.reservations[ReservationAt(db.reservations, id).value], db.tables[j].id)
    ensures
      var r := UpdateReservation(db, id, Override(None, None, None, None, None, None, Some(Cancelled)));
      && r.reply.Ok?
      && r.next.tables[j].status == Reserved
      && Holders(r.next.reservations, db.tables[j].id) == 0
      && !Consistent(r.next)
  {
    var i := ReservationAt(db.reservations, id).value;
    var o := Override(None, None, None, None, None, None, Some(Cancelled));
    HoldersUpdate(db.reservations, i, Overridden(db.reservations[i], o), db.tables[j].id);
    assert Agrees(db.reservations, db.tables[j]);
  }

  /** Binding a live reservation to a free table leaves the table `available`
      while it is held. */
  lemma AssignTableBreaksConsistency(db: Db, id: Id, j: nat)
    requires Consistent(db)
    requires ReservationAt(db.reservations, id).Some?
    requires Active(db.reservations[ReservationAt(db.reservations, id).value])
    requires j < |db.tables| && db.tables[j].status == Available
    ensures
      var r := AssignTable(db, id, db.tables[j].id);
      && r.reply.Ok?
      && r.next.tables[j].status == Available
      && Holders(r.next.reservations, db.tables[j].id) == 1
      && !Consistent(r.next)
  {
    var i := ReservationAt(db.reservations, id).value;
    var b := db.reservations[i];
    assert Agrees(db.reservations, db.tables[j]);
    if Holds(b, db.tables[j].id) {
      HolderCounted(db.reservations, i, db.tables[j].id);
    }
    HoldersUpdate(db.reservations, i, b.(table := Some(db.tables[j].id)), db.tables[j].id);
  }
}

=== FILE: common.dfy ===
/** Shared vocabulary of the backend: document ids, optional values and the
    answers a request handler gives. Each error constructor stands for one
    HTTP status together with its message. */
module Common {

  /** A document id (a MongoDB ObjectId in the application). */
  type Id = nat

  datatype Option<T> = None | Some(value: T)

  datatype Err =
    | NotFound            // 404
    | Forbidden           // 403
    | Unauthorized        // 401
    | Conflict            // 400 "This time slot is no longer available"
    | NotCancelled        // 400 "Only cancelled reservations can be deleted"
    | NoTable             // 400 "No available tables for the selected criteria"
    | UserExists          // 400 "User already exists"
    | InvalidCredentials  // 400 "Invalid credentials"
    | InvalidToken        // 400 "Invalid or expired token"
    | PasswordRequired    // 400 "Password is required"
    | EmailNotSent        // 500 "Email could not be sent"
    | ServerError         // 500: a schema validation or unique-index failure

  /** The response of a handler: a success payload or an error. */
  datatype Reply<T> = Ok(value: T) | Fail(err: Err)

  /** A handler's response together with the state it leaves behind. */
  datatype Outcome<T, S> = Outcome(reply: Reply<T>, next: S)
}

=== FILE: consistency.dfy ===
/** Which handlers keep a table `reserved` exactly while one non-cancelled
    reservation is bound to it, and how cancelling twice breaks that. */
module Consistency {
  import opened Common
  import opened Seqs
  import opened Schema
  import opened Store
  import opened Reservations

  lemma {:induction false} CreatePreservesConsistency(
    db: Db, caller: Id, date: int, time: string, guests: int, tableType: string, now: int)
    requires Consistent(db)
    ensures Consistent(Create(db, caller, date, time, guests, tableType, now).next)
  {
    var r := Create(db, caller, date, time, guests, tableType, now);
    if r.reply.Ok? {
      var b := r.reply.value;
      var i :| && FirstFit(db.tables, i, tableType, guests)
               && b.table == Some(db.tables[i].id)
               && r.next.tables == db.tables[i := db.tables[i].(status := Reserved)];
      forall j | 0 <= j < |r.next.tables|
        ensures Agrees(r.next.reservations, r.next.tables[j])
      {
        HoldersAppend(db.reservations, b, db.tables[j].id);
        assert Agrees(db.reservations, db.tables[j]);
        if j != i {
          assert db.tables[j].id != db.tables[i].id;
        }
      }
    }
  }

  /** An edit keeps both the status and the table binding, so no count moves. */
  lemma {:induction false} UpdatePreservesConsistency(db: Db, id: Id, caller: Id, c: Changes)
    requires Consistent(db)
    ensures Consistent(Update(db, id, caller, c).next)
  {
    var r := Update(db, id, caller, c);
    if r.reply.Ok? {
      var i := ReservationAt(db.reservations, id).value;
      var b := db.reservations[i];
      forall j | 0 <= j < |db.tables|
        ensures Agrees(r.next.reservations, db.tables[j])
      {
        HoldersUpdate(db.reservations, i, Merge(b, c), db.tables[j].id);
        assert Agrees(db.reservations, db.tables[j]);
      }
      assert forall k :: 0 <= k < |db.reservations| ==> r.next.reservations[k].id == db.reservations[k].id;
    }
  }

  lemma {:induction false} UpdateMergedPreservesConsistency(db: Db, id: Id, caller: Id, c: Changes)
    requires Consistent(db)
    ensures Consistent(UpdateMerged(db, id, caller, c).next)
  {
    var r := UpdateMerged(db, id, caller, c);
    if r.reply.Ok? {
      var i := ReservationAt(db.reservations, id).value;
      var b := db.reservations[i];
      forall j | 0 <= j < |db.tables|
        ensures Agrees(r.next.reservations, db.tables[j])
      {
        HoldersUpdate(db.reservations, i, Merge(b, c), db.tables[j].id);
        assert Agrees(db.reservations, db.tables[j]);
      }
      assert forall k :: 0 <= k < |db.reservations| ==> r.next.reservations[k].id == db.reservations[k].id;
    }
  }

  /** The cancelled reservation held its table alone, so freeing the table
      leaves it `available` with no holder. */
  lemma {:induction false} CancelActivePreservesConsistency(db: Db, id: Id, caller: Id)
    requires Consistent(db)
    requires ReservationAt(db.reservations, id).Some? ==>
               Active(db.reservations[ReservationAt(db.reservations, id).value])
    ensures Consistent(Cancel(db, id, caller).next)
  {
    var r := Cancel(db, id, caller);
    if r.reply.Ok? {
      var i := ReservationAt(db.reservations, id).value;
      var b := db.reservations[i];
      forall j | 0 <= j < |r.next.tables|
        ensures Agrees(r.next.reservations, r.next.tables[j])
      {
        HoldersUpdate(db.reservations, i, b.(status := Cancelled), db.tables[j].id);
        assert Agrees(db.reservations, db.tables[j]);
      }
      assert forall k :: 0 <= k < |db.reservations| ==> r.next.reservations[k].id == db.reservations[k].id;
      assert forall k :: 0 <= k < |db.tables| ==> r.next.tables[k].id == db.tables[k].id;
    }
  }

  lemma {:induction false} CancelOncePreservesConsistency(db: Db, id: Id, caller: Id)
    requires Consistent(db)
    ensures Consistent(CancelOnce(db, id, caller).next)
  {
    match ReservationAt(db.reservations, id)
    case None =>
    case Some(i) =>
      if Active(db.reservations[i]) {
        CancelActivePreservesConsistency(db, id, caller);
      }
  }

  /** Only a cancelled record can be deleted, and it holds nothing. */
  lemma {:induction false} DeletePreservesConsistency(db: Db, id: Id, caller: Id)
    requires Consistent(db)
    ensures Consistent(Delete(db, id, caller).next)
  {
    var r := Delete(db, id, caller);
    if r.reply.Ok? {
      var i := ReservationAt(db.reservations, id).value;
      forall j | 0 <= j < |db.tables|
        ensures Agrees(r.next.reservations, db.tables[j])
      {
        HoldersRemove(db.reservations, i, db.tables[j].id);
        assert Agrees(db.reservations, db.tables[j]);
      }
      var rs' := r.next.reservations;
      forall a, b | 0 <= a < b < |rs'| ensures rs'[a].id != rs'[b].id {
        var a' := if a < i then a else a + 1;
        var b' := if b < i then b else b + 1;
        assert rs'[a] == db.reservations[a'] && rs'[b] == db.reservations[b'];
      }
    }
  }

  /** Cancelling a reservation a second time, after its table has been booked
      by someone else, frees that table under the new booking. */
  lemma {:induction false} RepeatCancelBreaksConsistency(db: Db, id: Id, caller: Id, j: nat)
    requires Consistent(db)
    requires ReservationAt(db.reservations, id).Some?
    requires
      var b := db.reservations[ReservationAt(db.reservations, id).value];
      && b.user == caller && b.status == Cancelled
      && j < |db.tables| && b.table == Some(db.tables[j].id) && db.tables[j].status == Reserved
    ensures Cancel(db, id, caller).reply == Ok(())
    ensures Cancel(db, id, caller).next.tables[j].status == Available
    ensures !Consistent(Cancel(db, id, caller).next)
  {
    var i := ReservationAt(db.reservations, id).value;
    var b := db.reservations[i];
    var r := Cancel(db, id, caller);
    HoldersUpdate(db.reservations, i, b.(status := Cancelled), db.tables[j].id);
    assert db.reservations[i := b.(status := Cancelled)] == db.reservations;
    assert Agrees(db.reservations, db.tables[j]);
    assert !Agrees(r.next.reservations, r.next.tables[j]);
  }

  /** The reachable trace behind it: u7 books and cancels, u8 books the same
      table, and u7's repeated cancel frees it under u8's confirmed booking. */
  lemma RebookThenRepeatCancel()
    ensures
      var db0 := Db([Table(1, "5", 4, Indoor, Available, None)], [], 2);
      var s1 := Create(db0, 7, 20240601, "19:00", 2, "indoor", 100).next;
      var s2 := Cancel(s1, 2, 7).next;
      var s3 := Create(s2, 8, 20240601, "19:00", 2, "indoor", 101).next;
      var s4 := Cancel(s3, 2, 7);
      && Consistent(s3)
      && s3.reservations[1].user == 8 && s3.reservations[1].table == Some(1)
      && s4.reply == Ok(())
      && s4.next.tables[0].status == Available
      && s4.next.reservations[1].status == Confirmed && s4.next.reservations[1].table == Some(1)
      && !Consistent(s4.next)
  {
    var db0 := Db([Table(1, "5", 4, Indoor, Available, None)], [], 2);
    assert Consistent(db0);
    CreatePreservesConsistency(db0, 7, 20240601, "19:00", 2, "indoor", 100);
    var s1 := Create(db0, 7, 20240601, "19:00", 2, "indoor", 100).next;
    assert s1.reservations == [Reservation(2, 7, 20240601, "19:00", 2, "indoor", Some(1), Confirmed, 100)];
    CancelActivePreservesConsistency(s1, 2, 7);
    var s2 := Cancel(s1, 2, 7).next;
    assert s2.tables == [Table(1, "5", 4, Indoor, Available, None)];
    assert s2.reservations == [Reservation(2, 7, 20240601, "19:00", 2, "indoor", Some(1), Cancelled, 100)];
    CreatePreservesConsistency(s2, 8, 20240601, "19:00", 2, "indoor", 101);
    var s3 := Create(s2, 8, 20240601, "19:00", 2, "indoor", 101).next;
    assert s3.reservations[1] == Reservation(3, 8, 20240601, "19:00", 2, "indoor", Some(1), Confirmed, 101);
    RepeatCancelBreaksConsistency(s3, 2, 7, 0);
  }

  /** One table's life: booked, unavailable to a second party, freed by
      cancelling, and the cancelled record deleted exactly once. */
  lemma BookingLifecycle()
    ensures
      var db0 := Db([Table(5, "5", 4, Indoor, Available, None)], [], 6);
      var s1 := Create(db0, 1, 20240601, "19:00", 2, "indoor", 100);
      var s2 := Create(s1.next, 2, 20240601, "19:00", 2, "indoor", 101);
      var s3 := Cancel(s1.next, 6, 1);
      var s4 := Delete(s3.next, 6, 1);
      && s1.reply.Ok? && s1.reply.value.table == Some(5) && s1.next.tables[0].status == Reserved
      && s2.reply == Fail(NoTable)
      && s3.reply == Ok(()) && s3.next.tables[0].status == Available
      && s3.next.reservations[0].status == Cancelled
      && s4.reply == Ok(()) && s4.next.reservations == []
      && Delete(s4.next, 6, 1).reply == Fail(NotFound)
  {
    var db0 := Db([Table(5, "5", 4, Indoor, Available, None)], [], 6);
    var s1 := Create(db0, 1, 20240601, "19:00", 2, "indoor", 100);
    assert s1.next.tables == [Table(5, "5", 4, Indoor, Reserved, None)];
    assert s1.next.reservations == [Reservation(6, 1, 20240601, "19:00", 2, "indoor", Some(5), Confirmed, 100)];
    var s3 := Cancel(s1.next, 6, 1);
    assert s3.next.reservations == [Reservation(6, 1, 20240601, "19:00", 2, "indoor", Some(5), Cancelled, 100)];
  }

  /** A request that changes only the party size is refused as a slot
      conflict whenever any other live reservation exists, because the
      missing date and time drop out of the conflict query; judged by its
      resulting slot the same request goes through. */
  lemma GuestOnlyEditRefused()
    ensures
      var a := Reservation(0, 7, 20240601, "19:00", 2, "indoor", Some(1), Confirmed, 100);
      var b := Reservation(1, 8, 20240602, "20:00", 4, "outdoor", Some(2), Confirmed, 101);
      var db := Db([], [a, b], 2);
      var c := Changes(None, None, Some(3), None);
      && Update(db, 0, 7, c).reply == Fail(Conflict)
      && UpdateMerged(db, 0, 7, c).reply == Ok(a.(guests := 3))
  {
    var a := Reservation(0, 7, 20240601, "19:00", 2, "indoor", Some(1), Confirmed, 100);
    var b := Reservation(1, 8, 20240602, "20:00", 4, "outdoor", Some(2), Confirmed, 101);
    var c := Changes(None, None, Some(3), None);
    assert Clashes(b, 0, c);
    assert !SlotTaken([a, b], Merge(a, c));
  }

  /** Two customers booked the same slot on two tables. The edit form sends
      the stored date and time back with the new party size: as written that
      is refused, because the other booking sits in the very slot; the
      corrected edit accepts it. */
  lemma SharedSlotEditRefused()
    ensures
      var a := Reservation(0, 7, 20240601, "19:00", 2, "indoor", Some(1), Confirmed, 100);
      var b := Reservation(1, 8, 20240601, "19:00", 4, "indoor", Some(2), Confirmed, 101);
      var db := Db([], [a, b], 2);
      var c := Changes(Some(20240601), Some("19:00"), Some(3), Some("indoor"));
      && Update(db, 0, 7, c).reply == Fail(Conflict)
      && UpdateMerged(db, 0, 7, c).reply == Ok(a.(guests := 3))
  {
    var a := Reservation(0, 7, 20240601, "19:00", 2, "indoor", Some(1), Confirmed, 100);
    var b := Reservation(1, 8, 20240601, "19:00", 4, "indoor", Some(2), Confirmed, 101);
    var c := Changes(Some(20240601), Some("19:00"), Some(3), Some("indoor"));
    assert Clashes(b, 0, c);
    assert !MovesSlot(a, Merge(a, c));
  }

  /** The corrected edit never refuses an owner's edit that keeps the
      reservation in its slot, whoever else shares that slot. */
  lemma SameSlotEditAccepted(db: Db, id: Id, caller: Id, c: Changes)
    requires ReservationAt(db.reservations, id).Some?
    requires db.reservations[ReservationAt(db.reservations, id).value].user == caller
    requires !MovesSlot(db.reservations[ReservationAt(db.reservations, id).value],
                        Merge(db.reservations[ReservationAt(db.reservations, id).value], c))
    ensures UpdateMerged(db, id, caller, c).reply.Ok?
  {
  }

  /** Ids are never handed out twice: after a reservation is deleted and a
      new one booked, a cancel naming the deleted id finds nothing, rather
      than the new booking. */
  lemma {:induction false} StaleCancelIsNotFound(db: Db, id: Id, caller: Id, other: Id, date: int, time: string,
                                                guests: int, tableType: string, now: int, anyone: Id)
    requires Consistent(db)
    requires Delete(db, id, caller).reply.Ok?
    ensures
      var s := Create(Delete(db, id, caller).next, other, date, time, guests, tableType, now).next;
      Cancel(s, id, anyone).reply == Fail(NotFound)
  {
    var i := ReservationAt(db.reservations, id).value;
    var s1 := Delete(db, id, caller).next;
    assert s1.reservations == RemoveAt(db.reservations, i) && s1.issued == db.issued;
    forall k | 0 <= k < |s1.reservations| ensures s1.reservations[k].id != id {
      var k' := if k < i then k else k + 1;
      assert s1.reservations[k] == db.reservations[k'];
    }
    var s := Create(s1, other, date, time, guests, tableType, now).next;
    assert db.reservations[i].id < db.issued;
    forall k | 0 <= k < |s.reservations| ensures s.reservations[k].id != id {
      if k == |s1.reservations| {
        assert s.reservations[k].id == s1.issued;
      } else {
        assert s.reservations[k] == s1.reservations[k];
      }
    }
  }
}

=== FILE: guards.dfy ===
/** The request guards: taking the token out of the Authorization header,
    checking it, and checking the caller's role. Token verification is a
    parameter: it yields the token's claims or nothing. */
module Guards {
  import opened Common
  import opened Seqs
  import opened Schema
  import opened Accounts

  function IndexOf(s: string, c: char): (r: Option<nat>)
    ensures r.None? <==> c !in s
    ensures r.Some? ==> r.value < |s| && s[r.value] == c && c !in s[..r.value]
  {
    FirstIndex(s, (x: char) => x == c)
  }

  /** `s.split(sep)`: the pieces between separators, empty pieces included. */
  function Split(s: string, sep: char): (r: seq<string>)
    ensures |r| >= 1
    ensures forall k :: 0 <= k < |r| ==> sep !in r[k]
    decreases |s|
  {
    match IndexOf(s, sep)
    case None => [s]
    case Some(i) => [s[..i]] + Split(s[i + 1..], sep)
  }

  /** The pieces put back together with `sep` between them. */
  function Join(parts: seq<string>, sep: char): string
    requires |parts| >= 1
  {
    if |parts| == 1 then parts[0] else parts[0] + [sep] + Join(parts[1..], sep)
  }

  lemma {:induction false} JoinSplit(s: string, sep: char)
    ensures Join(Split(s, sep), sep) == s
    decreases |s|
  {
    match IndexOf(s, sep)
    case None =>
    case Some(i) =>
      JoinSplit(s[i + 1..], sep);
      JoinCons(s[..i], Split(s[i + 1..], sep), sep);
      CutAt(s, i);
  }

  lemma JoinCons(head: string, parts: seq<string>, sep: char)
    requires |parts| >= 1
    ensures Join([head] + parts, sep) == head + [sep] + Join(parts, sep)
  {
    assert ([head] + parts)[1..] == parts;
  }

  lemma CutAt(s: string, i: nat)
    requires i < |s|
    ensures s == s[..i] + [s[i]] + s[i + 1..]
  {
  }

  lemma {:induction false} SplitJoin(parts: seq<string>, sep: char)
    requires |parts| >= 1
    requires forall k :: 0 <= k < |parts| ==> sep !in parts[k]
    ensures Split(Join(parts, sep), sep) == parts
  {
    if |parts| > 1 {
      var s := Join(parts, sep);
      var n := |parts[0]|;
      assert s[n] == sep && s[..n] == parts[0] && s[n + 1..] == Join(parts[1..], sep);
      assert IndexOf(s, sep) == Some(n);
      SplitJoin(parts[1..], sep);
    }
  }

  /** The text between the first and the second space (or the end), if the
      string has a space at all. */
  function SecondField(s: string): (r: Option<string>)
    ensures r.Some? <==> |Split(s, ' ')| >= 2
    ensures r.Some? ==> r.value == Split(s, ' ')[1]
  {
    match IndexOf(s, ' ')
    case None => None
    case Some(i) =>
      var rest := s[i + 1..];
      match IndexOf(rest, ' ')
      case None => Some(rest)
      case Some(j) => Some(rest[..j])
  }

  const Scheme: string := "Bearer"

  /** The token `protect` reads: the second space-separated piece of a header
      starting with `Bearer`, unless that piece is missing or empty. */
  function BearerToken(header: Option<string>): (r: Option<string>)
    ensures r.Some? <==>
      && header.Some? && StartsWith(header.value, Scheme)
      && |Split(header.value, ' ')| >= 2 && Split(header.value, ' ')[1] != ""
    ensures r.Some? ==> r.value == Split(header.value, ' ')[1] && ' ' !in r.value
  {
    if header.Some? && StartsWith(header.value, Scheme) then
      match SecondField(header.value)
      case Some(t) => if t != "" then Some(t) else None
      case None => None
    else None
  }

  /** What a guard does with a request: pass it on, with the caller's id and
      role, or answer it with an error. */
  datatype Gate = Next(userId: Id, role: Role) | Deny(err: Err)

  /** `protect`: no usable token, then a token that does not verify, then a
      verified id with no user; otherwise the request goes on as that user. */
  function Protect(header: Option<string>, verify: string -> Option<Claims>, us: seq<User>): (g: Gate)
    ensures BearerToken(header).None? ==> g == Deny(Unauthorized)
    ensures BearerToken(header).Some? && verify(BearerToken(header).value).None? ==> g == Deny(Unauthorized)
    ensures BearerToken(header).Some? && verify(BearerToken(header).value).Some? ==>
      var c := verify(BearerToken(header).value).value;
      && (UserWithId(us, c.id).None? ==> g == Deny(NotFound))
      && (UserWithId(us, c.id).Some? ==> g == Next(c.id, us[UserWithId(us, c.id).value].role))
  {
    match BearerToken(header)
    case None => Deny(Unauthorized)
    case Some(t) =>
      match verify(t)
      case None => Deny(Unauthorized)
      case Some(c) =>
        match UserWithId(us, c.id)
        case None => Deny(NotFound)
        case Some(i) => Next(c.id, us[i].role)
  }

  /** `authorize(...roles)` after `protect`: a caller whose stored role is not
      listed is refused; anyone else goes on unchanged. */
  function Authorize(roles: seq<Role>, g: Gate): (r: Gate)
    ensures r == Deny(Forbidden) <==> (g.Next? && g.role !in roles) || g == Deny(Forbidden)
    ensures g.Deny? ==> r == g
    ensures g.Next? && g.role in roles ==> r == g
  {
    if g.Next? && g.role !in roles then Deny(Forbidden) else g
  }

  /** The admin-only guard: a missing header, a missing token or one that
      does not verify gives 401; a verified non-admin gives 403. The header's
      scheme is not looked at and the role comes from the token. */
  function AdminGuard(header: Option<string>, verify: string -> Option<Claims>): (g: Gate)
    ensures header.None? ==> g == Deny(Unauthorized)
    ensures header.Some? && (SecondField(header.value).None? || SecondField(header.value) == Some(""))
            ==> g == Deny(Unauthorized)
    ensures header.Some? && SecondField(header.value).Some? && SecondField(header.value).value != "" ==>
      var c := verify(SecondField(header.value).value);
      && (c.None? ==> g == Deny(Unauthorized))
      && (c.Some? && c.value.role != Admin ==> g == Deny(Forbidden))
      && (c.Some? && c.value.role == Admin ==> g == Next(c.value.id, c.value.role))
  {
    if header.None? then Deny(Unauthorized)
    else match SecondField(header.value)
      case None => Deny(Unauthorized)
      case Some(t) =>
        if t == "" then Deny(Unauthorized)
        else match verify(t)
          case None => Deny(Unauthorized)
          case Some(c) => if c.role != Admin then Deny(Forbidden) else Next(c.id, c.role)
  }

  /** A header with any other scheme word passes the admin-only guard when
      its token carries the admin role, but `protect` refuses it. */
  lemma AdminGuardIgnoresScheme(w: string, t: string, verify: string -> Option<Claims>, us: seq<User>, id: Id)
    requires forall k :: 0 <= k < |w| ==> w[k] != ' '
    requires forall k :: 0 <= k < |t| ==> t[k] != ' '
    requires t != "" && !StartsWith(w, Scheme)
    requires verify(t) == Some(Claims(id, Admin))
    ensures AdminGuard(Some(w + [' '] + t), verify) == Next(id, Admin)
    ensures Authorize([Admin], Protect(Some(w + [' '] + t), verify, us)) == Deny(Unauthorized)
  {
    TwoWords(w, t);
  }

  /** The admin-only guard trusts the role written in the token, while
      `protect` and `authorize` read the role stored for the user. */
  lemma AdminGuardTrustsTokenRole(t: string, verify: string -> Option<Claims>, us: seq<User>, id: Id)
    requires forall k :: 0 <= k < |t| ==> t[k] != ' '
    requires t != ""
    requires verify(t) == Some(Claims(id, Admin))
    requires UserWithId(us, id).Some? && us[UserWithId(us, id).value].role == Customer
    ensures AdminGuard(Some(Scheme + [' '] + t), verify) == Next(id, Admin)
    ensures Authorize([Admin], Protect(Some(Scheme + [' '] + t), verify, us)) == Deny(Forbidden)
  {
    TwoWords(Scheme, t);
    assert (Scheme + [' '] + t)[..|Scheme|] == Scheme;
  }

  /** The second field of two space-free words joined by one space is the
      second word. */
  lemma TwoWords(w: string, t: string)
    requires forall k :: 0 <= k < |w| ==> w[k] != ' '
    requires forall k :: 0 <= k < |t| ==> t[k] != ' '
    ensures SecondField(w + [' '] + t) == Some(t)
  {
    var h := w + [' '] + t;
    assert h[..|w|] == w && h[|w| + 1..] == t;
    assert IndexOf(h, ' ') == Some(|w|);
    assert IndexOf(t, ' ') == None;
  }
}

=== FILE: login_form.dfy ===
/** The client-side validation of the login form. */
module LoginForm {
  import opened Common

  /** The characters a regular expression's `\s` matches; `\S` is the rest. */
  predicate IsSpace(c: char)
  {
    || c == ' ' || c == '\t' || c == '\n' || c == '\r' || c == '\U{000B}' || c == '\U{000C}'
    || c == '\U{00A0}' || c == '\U{1680}' || ('\U{2000}' <= c <= '\U{200A}')
    || c == '\U{2028}' || c == '\U{2029}' || c == '\U{202F}' || c == '\U{205F}'
    || c == '\U{3000}' || c == '\U{FEFF}'
  }

  /** No whitespace in `s[i..j]`. */
  predicate Solid(s: string, i: int, j: int)
    requires 0 <= i <= j <= |s|
  {
    forall k :: i <= k < j ==> !IsSpace(s[k])
  }

  /** `s[a..e]` matches `\S+@\S+\.\S+` with the `@` at `p` and the `.` at `q`. */
  predicate PatternAt(s: string, a: int, p: int, q: int, e: int)
  {
    && 0 <= a < p && p + 1 < q && q + 1 < e <= |s|
    && s[p] == '@' && s[q] == '.'
    && Solid(s, a, e)
  }

  /** The email pattern occurs somewhere in `s` (the pattern is not anchored). */
  ghost predicate EmailPattern(s: string)
  {
    exists a, p, q, e :: PatternAt(s, a, p, q, e)
  }

  /** An `@` at `p` and a `.` at `q` with one solid character before, between
      and after them: the shortest occurrence of the pattern. */
  predicate AtDot(s: string, p: int, q: int)
  {
    1 <= p && p + 2 <= q && q + 2 <= |s| && s[p] == '@' && s[q] == '.' && Solid(s, p - 1, q + 2)
  }

  /** The executable test of the email pattern. */
  predicate LooksLikeEmail(s: string)
  {
    exists p, q | 0 <= p < |s| && 0 <= q < |s| :: AtDot(s, p, q)
  }

  lemma LooksLikeEmailIsPattern(s: string)
    ensures LooksLikeEmail(s) <==> EmailPattern(s)
  {
    if LooksLikeEmail(s) {
      var p, q :| 0 <= p < |s| && 0 <= q < |s| && AtDot(s, p, q);
      assert PatternAt(s, p - 1, p, q, q + 2);
    }
    if EmailPattern(s) {
      var a, p, q, e :| PatternAt(s, a, p, q, e);
      assert AtDot(s, p, q);
    }
  }

  const MinPasswordLength: nat := 6

  /** The error per field; `None` is a field without an error. */
  datatype AuthErrors = AuthErrors(email: Option<string>, password: Option<string>)

  /** The two fields are judged independently; the form is accepted exactly
      when both judgements are clean. */
  function ValidateAuth(email: string, password: string): (r: AuthErrors)
    ensures email == "" ==> r.email == Some("Email required")
    ensures email != "" && !EmailPattern(email) ==> r.email == Some("Email address is invalid")
    ensures EmailPattern(email) ==> r.email == None
    ensures password == "" ==> r.password == Some("Password required")
    ensures password != "" && |password| < MinPasswordLength
            ==> r.password == Some("Password must be at least 6 characters")
    ensures |password| >= MinPasswordLength ==> r.password == None
    ensures r == AuthErrors(None, None) <==> EmailPattern(email) && |password| >= MinPasswordLength
  {
    LooksLikeEmailIsPattern(email);
    var emailError :=
      if email == "" then Some("Email required")
      else if !LooksLikeEmail(email) then Some("Email address is invalid")
      else None;
    var passwordError :=
      if password == "" then Some("Password required")
      else if |password| < MinPasswordLength then Some("Password must be at least 6 characters")
      else None;
    AuthErrors(emailError, passwordError)
  }
}

=== FILE: registry.dfy ===
/** The table registry: listing, adding, editing and deleting tables, as the
    tables controller and the admin controller do it. None of these
    operations looks at the reservations bound to a table. */
module Registry {
  import opened Common
  import opened Seqs
  import opened Schema
  import opened Store

  /** Every table, unfiltered. */
  function AllTables(db: Db): seq<Table>
  {
    db.tables
  }

  /** The query string of the admin table listing; `None` is a parameter left out. */
  datatype TableQuery = TableQuery(search: Option<string>, kind: Option<string>)

  /** The search text occurs in the table's number or type name, ignoring case;
      the search text is read literally. */
  predicate SearchHit(t: Table, search: string)
  {
    || Contains(Lower(t.number), Lower(search))
    || Contains(Lower(TableTypeName(t.kind)), Lower(search))
  }

  /** A search or type parameter that is missing or empty filters nothing;
      the type `all` filters nothing either. */
  predicate Selected(t: Table, q: TableQuery)
  {
    && (q.search.None? || q.search.value == "" || SearchHit(t, q.search.value))
    && (q.kind.None? || q.kind.value == "" || q.kind.value == "all" || TableTypeName(t.kind) == q.kind.value)
  }

  /** The admin table listing. */
  function ListTables(db: Db, q: TableQuery): (r: seq<Table>)
    ensures multiset(r) <= multiset(db.tables)
    ensures forall k :: 0 <= k < |r| ==> r[k] in db.tables
    ensures q.kind.Some? && q.kind.value != "" && q.kind.value != "all" ==>
              forall k :: 0 <= k < |r| ==> TableTypeName(r[k].kind) == q.kind.value
    ensures q.search.Some? && q.search.value != "" ==>
              forall k :: 0 <= k < |r| ==> SearchHit(r[k], q.search.value)
    ensures forall k :: 0 <= k < |db.tables| && Selected(db.tables[k], q) ==> db.tables[k] in r
  {
    Filter(db.tables, (t: Table) => Selected(t, q))
  }

  /** Without a search text or a type the admin listing is the full listing. */
  lemma UnfilteredListingIsAll(db: Db, search: Option<string>, kind: Option<string>)
    requires search.None? || search == Some("")
    requires kind.None? || kind == Some("") || kind == Some("all")
    ensures ListTables(db, TableQuery(search, kind)) == AllTables(db)
  {
    FilterAll(db.tables, (t: Table) => Selected(t, TableQuery(search, kind)));
  }

  predicate NumberTaken(ts: seq<Table>, number: string)
  {
    exists k :: 0 <= k < |ts| && ts[k].number == number
  }

  /** Inserting a table. The schema rejects a missing number or capacity and
      a type outside the enumeration; the unique index rejects a number in
      use. Each of these surfaces as a server error. */
  function AddTable(db: Db, number: string, capacity: Option<int>, kind: Option<string>): (r: Outcome<Table, Db>)
    ensures r.reply.Fail? <==>
      || number == ""
      || capacity.None?
      || (kind.Some? && ParseTableType(kind.value).None?)
      || NumberTaken(db.tables, number)
    ensures r.reply.Fail? ==> r.reply == Fail(ServerError) && r.next == db
    ensures r.reply.Ok? ==>
      var t := r.reply.value;
      && t.number == number && Some(t.capacity) == capacity
      && (kind.Some? ==> TableTypeName(t.kind) == kind.value)
      && (kind.None? ==> t.kind == DefaultTableType)
      && t.status == DefaultTableStatus && t.currentReservation == None
      && t.id == db.issued
      && (IdsIssued(db) ==> forall k :: 0 <= k < |db.tables| ==> db.tables[k].id != t.id)
      && r.next == db.(tables := db.tables + [t], issued := db.issued + 1)
  {
    var parsed := if kind.Some? then ParseTableType(kind.value) else Some(DefaultTableType);
    if number == "" || capacity.None? || parsed.None? then Outcome(Fail(ServerError), db)
    else if FirstIndex(db.tables, (t: Table) => t.number == number).Some? then Outcome(Fail(ServerError), db)
    else
      var t := NewTable(db.issued, number, capacity.value, parsed.value);
      Outcome(Ok(t), db.(tables := db.tables + [t], issued := db.issued + 1))
  }

  /** The fields of a table edit; `None` is a field the request leaves out. */
  datatype TablePatch = TablePatch(
    number: Option<string>, capacity: Option<int>, kind: Option<TableType>, status: Option<TableStatus>)

  function Patched(t: Table, p: TablePatch): (u: Table)
    ensures u.id == t.id && u.currentReservation == t.currentReservation
    ensures u.number == (if p.number.Some? then p.number.value else t.number)
    ensures u.capacity == (if p.capacity.Some? then p.capacity.value else t.capacity)
    ensures u.kind == (if p.kind.Some? then p.kind.value else t.kind)
    ensures u.status == (if p.status.Some? then p.status.value else t.status)
  {
    t.(number := if p.number.Some? then p.number.value else t.number,
       capacity := if p.capacity.Some? then p.capacity.value else t.capacity,
       kind := if p.kind.Some? then p.kind.value else t.kind,
       status := if p.status.Some? then p.status.value else t.status)
  }

  /** A table with another id already has the number `number`. */
  predicate NumberTakenElsewhere(ts: seq<Table>, id: Id, number: string)
  {
    exists k :: 0 <= k < |ts| && ts[k].id != id && ts[k].number == number
  }

  /** Editing a table: an unknown id is not found; a number already used by
      another table violates the unique index; otherwise the given fields are
      written as they are, whatever reservations are bound to the table. */
  function UpdateTable(db: Db, id: Id, p: TablePatch): (r: Outcome<Table, Db>)
    ensures r.reply.Fail? ==> r.next == db
    ensures TableAt(db.tables, id).None? ==> r.reply == Fail(NotFound)
    ensures TableAt(db.tables, id).Some? ==>
      var i := TableAt(db.tables, id).value;
      && (p.number.Some? && NumberTakenElsewhere(db.tables, id, p.number.value) ==> r.reply == Fail(ServerError))
      && (!(p.number.Some? && NumberTakenElsewhere(db.tables, id, p.number.value)) ==>
            && r.reply == Ok(Patched(db.tables[i], p))
            && r.next == db.(tables := db.tables[i := Patched(db.tables[i], p)]))
  {
    match TableAt(db.tables, id)
    case None => Outcome(Fail(NotFound), db)
    case Some(i) =>
      if p.number.Some?
         && FirstIndex(db.tables, (t: Table) => t.id != id && t.number == p.number.value).Some?
      then Outcome(Fail(ServerError), db)
      else
        var u := Patched(db.tables[i], p);
        Outcome(Ok(u), db.(tables := db.tables[i := u]))
  }

  /** Deleting a table with a not-found answer for an unknown id. The
      reservations, including those bound to the table, are left as they are. */
  function DeleteTable(db: Db, id: Id): (r: Outcome<(), Db>)
    ensures r.next.reservations == db.reservations
    ensures TableAt(db.tables, id).None? <==> r.reply == Fail(NotFound)
    ensures TableAt(db.tables, id).None? ==> r.next == db
    ensures TableAt(db.tables, id).Some? ==>
      r.reply == Ok(()) && r.next.tables == RemoveAt(db.tables, TableAt(db.tables, id).value)
  {
    match TableAt(db.tables, id)
    case None => Outcome(Fail(NotFound), db)
    case Some(i) => Outcome(Ok(()), db.(tables := RemoveAt(db.tables, i)))
  }

  /** The admin deletion: success whether or not the id exists. */
  function DeleteTableUnchecked(db: Db, id: Id): (r: Outcome<(), Db>)
    ensures r.reply == Ok(())
    ensures r.next.reservations == db.reservations
    ensures TableAt(db.tables, id).None? ==> r.next == db
    ensures TableAt(db.tables, id).Some? ==> r.next == DeleteTable(db, id).next
  {
    DeleteTable(db, id).(reply := Ok(()))
  }

  lemma AddTableKeepsKeysDistinct(db: Db, number: string, capacity: Option<int>, kind: Option<string>)
    requires IdsIssued(db) && DistinctTableIds(db.tables) && DistinctNumbers(db.tables)
    ensures DistinctTableIds(AddTable(db, number, capacity, kind).next.tables)
    ensures DistinctNumbers(AddTable(db, number, capacity, kind).next.tables)
  {
  }

  lemma UpdateTableKeepsKeysDistinct(db: Db, id: Id, p: TablePatch)
    requires DistinctTableIds(db.tables) && DistinctNumbers(db.tables)
    ensures DistinctTableIds(UpdateTable(db, id, p).next.tables)
    ensures DistinctNumbers(UpdateTable(db, id, p).next.tables)
  {
    var r := UpdateTable(db, id, p);
    if r.reply.Ok? {
      var i := TableAt(db.tables, id).value;
      var ts := r.next.tables;
      forall a, b | 0 <= a < b < |ts| ensures ts[a].number != ts[b].number && ts[a].id != ts[b].id {
        if a != i && b != i {
        } else if p.number.Some? {
          assert !NumberTakenElsewhere(db.tables, id, p.number.value);
        }
      }
    }
  }

  /** Overwriting the status of a booked table to `available` leaves its
      reservation bound to a table that the store reports as free. */
  lemma StatusOverwriteBreaksConsistency(db: Db, j: nat)
    requires Consistent(db)
    requires j < |db.tables| && db.tables[j].status == Reserved
    ensures
      var r := UpdateTable(db, db.tables[j].id, TablePatch(None, None, None, Some(Available)));
      r.reply.Ok? && !Consistent(r.next)
  {
    var id := db.tables[j].id;
    var i := TableAt(db.tables, id).value;
    assert i == j;
    assert Agrees(db.reservations, db.tables[j]);
    var r := UpdateTable(db, id, TablePatch(None, None, None, Some(Available)));
    assert r.next.tables[j].status == Available && r.next.tables[j].id == id;
    assert !Agrees(r.next.reservations, r.next.tables[j]);
  }

  /** Deleting a table leaves the reservations bound to it pointing at an id
      that no table has any more. */
  lemma DeleteTableLeavesDanglingBinding(db: Db, id: Id, k: nat)
    requires DistinctTableIds(db.tables)
    requires k < |db.reservations| && db.reservations[k].table == Some(id)
    requires TableAt(db.tables, id).Some?
    ensures
      var r := DeleteTable(db, id);
      && r.reply == Ok(())
      && r.next.reservations[k].table == Some(id)
      && forall m :: 0 <= m < |r.next.tables| ==> r.next.tables[m].id != id
  {
    var i := TableAt(db.tables, id).value;
    var ts := DeleteTable(db, id).next.tables;
    forall m | 0 <= m < |ts| ensures ts[m].id != id {
      if m < i { assert ts[m] == db.tables[m]; } else { assert ts[m] == db.tables[m + 1]; }
    }
  }

  /** A table added after a delete never takes the deleted table's id, so
      the reservations still bound to the deleted table stay unattached: the
      new table starts with no holder. */
  lemma ReaddedTableStaysUnbound(db: Db, id: Id, number: string, capacity: Option<int>, kind: Option<string>)
    requires IdsIssued(db) && BindingsIssued(db)
    ensures
      var a := AddTable(DeleteTable(db, id).next, number, capacity, kind);
      a.reply.Ok? ==>
        && (forall k :: 0 <= k < |db.tables| ==> db.tables[k].id != a.reply.value.id)
        && Holders(a.next.reservations, a.reply.value.id) == 0
  {
    var rs := db.reservations;
    forall k | 0 <= k < |rs| ensures !Holds(rs[k], db.issued) {
      if rs[k].table.Some? {
        assert rs[k].table.value < db.issued;
      }
    }
    NoHolders(rs, db.issued);
  }
}

=== FILE: reservations.dfy ===
/** The customer's reservation handlers: each one is an atomic transition of
    the store returning the handler's response. */
module Reservations {
  import opened Common
  import opened Seqs
  import opened Sorting
  import opened Schema
  import opened Store

  /** The criteria of the table query when booking: the requested type, free,
      and big enough for the party. */
  predicate Fits(t: Table, tableType: string, guests: int)
  {
    TableTypeName(t.kind) == tableType && t.status == Available && t.capacity >= guests
  }

  /** Position `i` holds the first table, in storage order, meeting the criteria. */
  predicate FirstFit(ts: seq<Table>, i: int, tableType: string, guests: int)
  {
    && 0 <= i < |ts|
    && Fits(ts[i], tableType, guests)
    && forall k :: 0 <= k < i ==> !Fits(ts[k], tableType, guests)
  }

  /** Books the first fitting table for the caller: a confirmed reservation
      bound to it, and that table turned `reserved`. */
  function Create(db: Db, caller: Id, date: int, time: string, guests: int, tableType: string, now: int)
    : (r: Outcome<Reservation, Db>)
    ensures r.reply.Fail? <==> forall k :: 0 <= k < |db.tables| ==> !Fits(db.tables[k], tableType, guests)
    ensures r.reply.Fail? ==> r.reply.err == NoTable && r.next == db
    ensures r.reply.Ok? ==>
      var b := r.reply.value;
      && b.user == caller && b.date == date && b.time == time && b.guests == guests
      && b.tableType == tableType && b.status == Confirmed && b.createdAt == now
      && b.id == db.issued && r.next.issued > b.id
      && (IdsIssued(db) ==> forall k :: 0 <= k < |db.reservations| ==> db.reservations[k].id != b.id)
      && r.next.reservations == db.reservations + [b]
      && exists i :: && FirstFit(db.tables, i, tableType, guests)
                     && b.table == Some(db.tables[i].id)
                     && r.next.tables == db.tables[i := db.tables[i].(status := Reserved)]
  {
    match FirstIndex(db.tables, (t: Table) => Fits(t, tableType, guests))
    case None => Outcome(Fail(NoTable), db)
    case Some(i) =>
      assert FirstFit(db.tables, i, tableType, guests);
      var b := Reservation(db.issued, caller, date, time,
                           guests, tableType, Some(db.tables[i].id), Confirmed, now);
      Outcome(Ok(b), Db(db.tables[i := db.tables[i].(status := Reserved)], db.reservations + [b], db.issued + 1))
  }

  /** The listing order: by date, then by time. */
  predicate SlotLe(a: Reservation, b: Reservation)
  {
    a.date < b.date || (a.date == b.date && StrLe(a.time, b.time))
  }

  lemma SlotLeIsTotalPreorder()
    ensures TotalPreorder(SlotLe)
  {
    forall a, b ensures SlotLe(a, b) || SlotLe(b, a) {
      StrLeTotal(a.time, b.time);
    }
    forall a, b, c | SlotLe(a, b) && SlotLe(b, c) ensures SlotLe(a, c) {
      if a.date == b.date == c.date {
        StrLeTransitive(a.time, b.time, c.time);
      }
    }
  }

  function OwnedBy(caller: Id): Reservation -> bool
  {
    (x: Reservation) => x.user == caller
  }

  /** The caller's reservations, by date then time. */
  function ListMine(db: Db, caller: Id): (r: seq<Reservation>)
    ensures forall k :: 0 <= k < |r| ==> r[k].user == caller && r[k] in db.reservations
    ensures forall k :: 0 <= k < |db.reservations| && db.reservations[k].user == caller ==>
              db.reservations[k] in r
    ensures multiset(r) == multiset(Filter(db.reservations, OwnedBy(caller)))
    ensures Sorted(r, SlotLe)
  {
    SlotLeIsTotalPreorder();
    var mine := Filter(db.reservations, OwnedBy(caller));
    var r := Sort(mine, SlotLe);
    SortedMineOwned(db.reservations, mine, r, caller);
    SortedMineComplete(db.reservations, mine, r, caller);
    r
  }

  lemma SortedMineOwned(rs: seq<Reservation>, mine: seq<Reservation>, r: seq<Reservation>, caller: Id)
    requires mine == Filter(rs, OwnedBy(caller))
    requires multiset(r) == multiset(mine)
    ensures forall k :: 0 <= k < |r| ==> r[k].user == caller && r[k] in rs
  {
    forall k | 0 <= k < |r| ensures r[k].user == caller && r[k] in rs {
      assert r[k] in multiset(mine);
      var j :| 0 <= j < |mine| && mine[j] == r[k];
      assert OwnedBy(caller)(mine[j]) && mine[j] in rs;
    }
  }

  lemma SortedMineComplete(rs: seq<Reservation>, mine: seq<Reservation>, r: seq<Reservation>, caller: Id)
    requires mine == Filter(rs, OwnedBy(caller))
    requires multiset(r) == multiset(mine)
    ensures forall k :: 0 <= k < |rs| && rs[k].user == caller ==> rs[k] in r
  {
    forall k | 0 <= k < |rs| && rs[k].user == caller ensures rs[k] in r {
      assert OwnedBy(caller)(rs[k]);
      assert rs[k] in mine;
      assert rs[k] in multiset(mine);
    }
  }

  /** The fields of an update request; `None` is a field the request leaves out. */
  datatype Changes = Changes(date: Option<int>, time: Option<string>, guests: Option<int>, tableType: Option<string>)

  /** `new || old` per field: a missing or falsy value (an empty string, a
      zero date or guest count) keeps the stored one. Nothing but these four fields changes. */
  function Merge(b: Reservation, c: Changes): (m: Reservation)
    ensures m.id == b.id && m.user == b.user && m.table == b.table
    ensures m.status == b.status && m.createdAt == b.createdAt
    ensures m.date == (if c.date.Some? && c.date.value != 0 then c.date.value else b.date)
    ensures m.time == (if c.time.Some? && c.time.value != "" then c.time.value else b.time)
    ensures m.guests == (if c.guests.Some? && c.guests.value != 0 then c.guests.value else b.guests)
    ensures m.tableType == (if c.tableType.Some? && c.tableType.value != "" then c.tableType.value else b.tableType)
  {
    b.(date := if c.date.Some? && c.date.value != 0 then c.date.value else b.date,
       time := if c.time.Some? && c.time.value != "" then c.time.value else b.time,
       guests := if c.guests.Some? && c.guests.value != 0 then c.guests.value else b.guests,
       tableType := if c.tableType.Some? && c.tableType.value != "" then c.tableType.value else b.tableType)
  }

  /** The conflict query as the handler issues it: another non-cancelled
      reservation matching the requested date and time, where a field the
      request leaves out drops out of the filter. */
  predicate Clashes(o: Reservation, id: Id, c: Changes)
  {
    && o.id != id
    && Active(o)
    && (c.date.None? || o.date == c.date.value)
    && (c.time.None? || o.time == c.time.value)
  }

  predicate AnyClash(rs: seq<Reservation>, id: Id, c: Changes)
  {
    exists k :: 0 <= k < |rs| && Clashes(rs[k], id, c)
  }

  /** The owner's edit: not found, then not the owner, then a slot conflict;
      otherwise the merged fields are written and nothing else changes. */
  function Update(db: Db, id: Id, caller: Id, c: Changes): (r: Outcome<Reservation, Db>)
    ensures r.reply.Fail? ==> r.next == db
    ensures ReservationAt(db.reservations, id).None? ==> r.reply == Fail(NotFound)
    ensures ReservationAt(db.reservations, id).Some? ==>
      var i := ReservationAt(db.reservations, id).value;
      var b := db.reservations[i];
      && (b.user != caller ==> r.reply == Fail(Forbidden))
      && (b.user == caller && AnyClash(db.reservations, id, c) ==> r.reply == Fail(Conflict))
      && (b.user == caller && !AnyClash(db.reservations, id, c) ==>
            && r.reply == Ok(Merge(b, c))
            && r.next == db.(reservations := db.reservations[i := Merge(b, c)]))
  {
    match ReservationAt(db.reservations, id)
    case None => Outcome(Fail(NotFound), db)
    case Some(i) =>
      var b := db.reservations[i];
      if b.user != caller then Outcome(Fail(Forbidden), db)
      else match FirstIndex(db.reservations, (o: Reservation) => Clashes(o, id, c))
        case Some(_) => Outcome(Fail(Conflict), db)
        case None =>
          var m := Merge(b, c);
          Outcome(Ok(m), db.(reservations := db.reservations[i := m]))
  }

  /** Another non-cancelled reservation sits in exactly the slot `m` is in. */
  predicate SlotTaken(rs: seq<Reservation>, m: Reservation)
  {
    exists k :: 0 <= k < |rs| && rs[k].id != m.id && Active(rs[k]) && rs[k].date == m.date && rs[k].time == m.time
  }

  /** The edit takes the reservation to a different date or time. */
  predicate MovesSlot(b: Reservation, m: Reservation)
  {
    m.date != b.date || m.time != b.time
  }

  /** The owner's edit with the slot check made only when the edit moves the
      reservation, and then against the slot it moves to: a request that
      leaves the date and time out, or re-sends the stored ones, keeps the
      reservation where it is and is never a conflict. */
  function UpdateMerged(db: Db, id: Id, caller: Id, c: Changes): (r: Outcome<Reservation, Db>)
    ensures r.reply.Fail? ==> r.next == db
    ensures ReservationAt(db.reservations, id).None? ==> r.reply == Fail(NotFound)
    ensures ReservationAt(db.reservations, id).Some? ==>
      var i := ReservationAt(db.reservations, id).value;
      var b := db.reservations[i];
      && (b.user != caller ==> r.reply == Fail(Forbidden))
      && ((b.user == caller && MovesSlot(b, Merge(b, c)) && SlotTaken(db.reservations, Merge(b, c)))
            ==> r.reply == Fail(Conflict))
      && (b.user == caller && !(MovesSlot(b, Merge(b, c)) && SlotTaken(db.reservations, Merge(b, c))) ==>
            && r.reply == Ok(Merge(b, c))
            && r.next == db.(reservations := db.reservations[i := Merge(b, c)]))
  {
    match ReservationAt(db.reservations, id)
    case None => Outcome(Fail(NotFound), db)
    case Some(i) =>
      var b := db.reservations[i];
      var m := Merge(b, c);
      if b.user != caller then Outcome(Fail(Forbidden), db)
      else if !MovesSlot(b, m) then Outcome(Ok(m), db.(reservations := db.reservations[i := m]))
      else match FirstIndex(db.reservations, (o: Reservation) => o.id != id && Active(o) && o.date == m.date && o.time == m.time)
        case Some(_) => Outcome(Fail(Conflict), db)
        case None => Outcome(Ok(m), db.(reservations := db.reservations[i := m]))
  }

  /** The table a cancellation frees: the bound one, if any. */
  function Release(ts: seq<Table>, b: Reservation): seq<Table>
  {
    if b.table.Some? then SetStatus(ts, b.table.value, Available) else ts
  }

  /** The owner's cancellation as written: after the not-found and owner
      checks the reservation becomes `cancelled` and its bound table
      `available`; the binding stays, and an already cancelled reservation
      goes through the same steps. */
  function Cancel(db: Db, id: Id, caller: Id): (r: Outcome<(), Db>)
    ensures r.reply.Fail? ==> r.next == db
    ensures ReservationAt(db.reservations, id).None? ==> r.reply == Fail(NotFound)
    ensures ReservationAt(db.reservations, id).Some? ==>
      var i := ReservationAt(db.reservations, id).value;
      var b := db.reservations[i];
      && (b.user != caller ==> r.reply == Fail(Forbidden))
      && (b.user == caller ==>
            && r.reply == Ok(())
            && r.next.reservations == db.reservations[i := b.(status := Cancelled)]
            && |r.next.tables| == |db.tables|
            && (forall k :: 0 <= k < |db.tables| ==>
                  r.next.tables[k] == if b.table == Some(db.tables[k].id)
                                      then db.tables[k].(status := Available)
                                      else db.tables[k]))
  {
    match ReservationAt(db.reservations, id)
    case None => Outcome(Fail(NotFound), db)
    case Some(i) =>
      var b := db.reservations[i];
      if b.user != caller then Outcome(Fail(Forbidden), db)
      else Outcome(Ok(()), db.(tables := Release(db.tables, b), reservations := db.reservations[i := b.(status := Cancelled)]))
  }

  /** Cancellation as evidently intended: a reservation already cancelled
      no longer holds its table, so cancelling it again frees nothing. */
  function CancelOnce(db: Db, id: Id, caller: Id): (r: Outcome<(), Db>)
    ensures r.reply.Fail? ==> r.next == db
    ensures ReservationAt(db.reservations, id).Some?
            && db.reservations[ReservationAt(db.reservations, id).value].status == Cancelled
            ==> r.next == db
    ensures r.reply == Cancel(db, id, caller).reply
    ensures ReservationAt(db.reservations, id).Some?
            && Active(db.reservations[ReservationAt(db.reservations, id).value])
            ==> r == Cancel(db, id, caller)
  {
    match ReservationAt(db.reservations, id)
    case None => Outcome(Fail(NotFound), db)
    case Some(i) =>
      var b := db.reservations[i];
      if b.user != caller then Outcome(Fail(Forbidden), db)
      else if b.status == Cancelled then Outcome(Ok(()), db)
      else Outcome(Ok(()), db.(tables := Release(db.tables, b), reservations := db.reservations[i := b.(status := Cancelled)]))
  }

  /** The owner's hard delete, permitted only once the reservation is
      cancelled; it removes that record and touches no table. */
  function Delete(db: Db, id: Id, caller: Id): (r: Outcome<(), Db>)
    ensures r.reply.Fail? ==> r.next == db
    ensures ReservationAt(db.reservations, id).None? ==> r.reply == Fail(NotFound)
    ensures ReservationAt(db.reservations, id).Some? ==>
      var i := ReservationAt(db.reservations, id).value;
      var b := db.reservations[i];
      && (b.user != caller ==> r.reply == Fail(Forbidden))
      && (b.user == caller && b.status != Cancelled ==> r.reply == Fail(NotCancelled))
      && (b.user == caller && b.status == Cancelled ==>
            r.reply == Ok(()) && r.next == db.(reservations := RemoveAt(db.reservations, i)))
  {
    match ReservationAt(db.reservations, id)
    case None => Outcome(Fail(NotFound), db)
    case Some(i) =>
      var b := db.reservations[i];
      if b.user != caller then Outcome(Fail(Forbidden), db)
      else if b.status != Cancelled then Outcome(Fail(NotCancelled), db)
      else Outcome(Ok(()), db.(reservations := RemoveAt(db.reservations, i)))
  }
}

=== FILE: schema.dfy ===
/** The documents of the three collections (tables, reservations, users),
    their enumerations with the strings stored for them, their defaults and
    the uniqueness constraints of the schemas. */
module Schema {
  import opened Common

  datatype TableType = Indoor | Outdoor | Private
  datatype TableStatus = Available | Reserved | Occupied
  datatype ReservationStatus = Pending | Confirmed | Cancelled
  datatype Role = Customer | Admin

  const DefaultTableType: TableType := Indoor
  const DefaultTableStatus: TableStatus := Available
  const DefaultRole: Role := Customer

  function TableTypeName(t: TableType): string
  {
    match t
    case Indoor => "indoor"
    case Outdoor => "outdoor"
    case Private => "private"
  }

  /** The enum validator of a table's `type`: exactly the three names parse. */
  function ParseTableType(s: string): (r: Option<TableType>)
    ensures forall t :: r == Some(t) <==> TableTypeName(t) == s
  {
    if s == "indoor" then Some(Indoor)
    else if s == "outdoor" then Some(Outdoor)
    else if s == "private" then Some(Private)
    else None
  }

  function TableStatusName(st: TableStatus): string
  {
    match st
    case Available => "available"
    case Reserved => "reserved"
    case Occupied => "occupied"
  }

  function ParseTableStatus(s: string): (r: Option<TableStatus>)
    ensures forall st :: r == Some(st) <==> TableStatusName(st) == s
  {
    if s == "available" then Some(Available)
    else if s == "reserved" then Some(Reserved)
    else if s == "occupied" then Some(Occupied)
    else None
  }

  function ReservationStatusName(st: ReservationStatus): string
  {
    match st
    case Pending => "pending"
    case Confirmed => "confirmed"
    case Cancelled => "cancelled"
  }

  function ParseReservationStatus(s: string): (r: Option<ReservationStatus>)
    ensures forall st :: r == Some(st) <==> ReservationStatusName(st) == s
  {
    if s == "pending" then Some(Pending)
    else if s == "confirmed" then Some(Confirmed)
    else if s == "cancelled" then Some(Cancelled)
    else None
  }

  function RoleName(role: Role): string
  {
    match role
    case Customer => "customer"
    case Admin => "admin"
  }

  function ParseRole(s: string): (r: Option<Role>)
    ensures forall role :: r == Some(role) <==> RoleName(role) == s
  {
    if s == "customer" then Some(Customer)
    else if s == "admin" then Some(Admin)
    else None
  }

  /** A table document; `kind` is the schema's `type` field. */
  datatype Table = Table(
    id: Id,
    number: string,
    capacity: int,
    kind: TableType,
    status: TableStatus,
    currentReservation: Option<Id>)

  /** A reservation document. `date` is a day-resolution timestamp, `time`
      the clock time as the client sent it, `createdAt` the insertion time. */
  datatype Reservation = Reservation(
    id: Id,
    user: Id,
    date: int,
    time: string,
    guests: int,
    tableType: string,
    table: Option<Id>,
    status: ReservationStatus,
    createdAt: int)

  /** A user document. `password` holds the password hash. The last two
      fields are the paths the password-reset handlers assign: the digest of
      an outstanding reset token and its expiry instant. The declared user
      schema has neither path, so a store written under it keeps both `None`;
      they carry values only under a schema that declares them. */
  datatype User = User(
    id: Id,
    name: string,
    email: string,
    password: string,
    role: Role,
    reservations: seq<Id>,
    resetToken: Option<string>,
    resetExpire: Option<int>)

  /** A table as a fresh insert creates it: status from the schema default,
      no current reservation. */
  function NewTable(id: Id, number: string, capacity: int, kind: TableType): (t: Table)
    ensures t.status == DefaultTableStatus && t.currentReservation == None
    ensures t.id == id && t.number == number && t.capacity == capacity && t.kind == kind
  {
    Table(id, number, capacity, kind, Available, None)
  }

  /** A user as registration creates it: default role, no reservations and
      no outstanding reset token. */
  function NewUser(id: Id, name: string, email: string, passwordHash: string): (u: User)
    ensures u.role == DefaultRole && u.reservations == []
    ensures u.resetToken == None && u.resetExpire == None
    ensures u.id == id && u.name == name && u.email == email && u.password == passwordHash
  {
    User(id, name, email, passwordHash, Customer, [], None, None)
  }

  predicate DistinctTableIds(ts: seq<Table>)
  {
    forall i, j :: 0 <= i < j < |ts| ==> ts[i].id != ts[j].id
  }

  /** The unique index on a table's `number`. */
  predicate DistinctNumbers(ts: seq<Table>)
  {
    forall i, j :: 0 <= i < j < |ts| ==> ts[i].number != ts[j].number
  }

  predicate DistinctReservationIds(rs: seq<Reservation>)
  {
    forall i, j :: 0 <= i < j < |rs| ==> rs[i].id != rs[j].id
  }

  predicate DistinctUserIds(us: seq<User>)
  {
    forall i, j :: 0 <= i < j < |us| ==> us[i].id != us[j].id
  }

  /** The unique index on a user's `email`. */
  predicate DistinctEmails(us: seq<User>)
  {
    forall i, j :: 0 <= i < j < |us| ==> us[i].email != us[j].email
  }
}

=== FILE: seqs.dfy ===
/** Queries over collections kept in storage order, and the string helpers
    the handlers need. */
module Seqs {
  import opened Common

  /** The position of the first element satisfying `p`: a `findOne` over a
      collection scanned in storage order. */
  function FirstIndex<T>(xs: seq<T>, p: T -> bool): (r: Option<nat>)
    ensures r.None? <==> forall k :: 0 <= k < |xs| ==> !p(xs[k])
    ensures r.Some? ==> r.value < |xs| && p(xs[r.value])
    ensures r.Some? ==> forall k :: 0 <= k < r.value ==> !p(xs[k])
  {
    if |xs| == 0 then None
    else if p(xs[0]) then Some(0)
    else match FirstIndex(xs[1..], p)
      case None => None
      case Some(i) => Some(i + 1)
  }

  /** `findById`: the position of the first element whose key is `id`. */
  function FirstWithId<T>(xs: seq<T>, key: T -> Id, id: Id): (r: Option<nat>)
    ensures r.None? <==> forall k :: 0 <= k < |xs| ==> key(xs[k]) != id
    ensures r.Some? ==> r.value < |xs| && key(xs[r.value]) == id
  {
    FirstIndex(xs, (x: T) => key(x) == id)
  }

  /** The elements satisfying `p`, in their original order: a `find` query. */
  function Filter<T>(xs: seq<T>, p: T -> bool): (r: seq<T>)
    ensures |r| <= |xs|
    ensures forall k :: 0 <= k < |r| ==> p(r[k]) && r[k] in xs
    ensures multiset(r) <= multiset(xs)
    ensures forall k :: 0 <= k < |xs| && p(xs[k]) ==> xs[k] in r
  {
    if |xs| == 0 then []
    else
      assert xs == [xs[0]] + xs[1..];
      (if p(xs[0]) then [xs[0]] else []) + Filter(xs[1..], p)
  }

  /** A filter every element passes returns the whole collection. */
  lemma {:induction false} FilterAll<T>(xs: seq<T>, p: T -> bool)
    requires forall k :: 0 <= k < |xs| ==> p(xs[k])
    ensures Filter(xs, p) == xs
  {
    if |xs| > 0 {
      FilterAll(xs[1..], p);
    }
  }

  /** The number of elements satisfying `p`: a `countDocuments` query. */
  function Count<T>(xs: seq<T>, p: T -> bool): nat
  {
    |Filter(xs, p)|
  }

  /** An id above every id in use, standing in for a freshly generated one. */
  function NextId<T>(xs: seq<T>, id: T -> Id): (r: Id)
    ensures forall k :: 0 <= k < |xs| ==> id(xs[k]) < r
  {
    if |xs| == 0 then 0
    else
      var rest := NextId(xs[1..], id);
      if rest <= id(xs[0]) then id(xs[0]) + 1 else rest
  }

  /** `xs` without the element at position `i`. */
  function RemoveAt<T>(xs: seq<T>, i: nat): (r: seq<T>)
    requires i < |xs|
    ensures |r| == |xs| - 1
    ensures forall k :: 0 <= k < i ==> r[k] == xs[k]
    ensures forall k :: i <= k < |r| ==> r[k] == xs[k + 1]
  {
    xs[..i] + xs[i + 1..]
  }

  predicate StartsWith(s: string, prefix: string)
  {
    |prefix| <= |s| && s[..|prefix|] == prefix
  }

  /** `needle` occurs somewhere inside `hay`. */
  predicate Contains(hay: string, needle: string)
  {
    exists k | 0 <= k <= |hay| - |needle| :: OccursAt(hay, needle, k)
  }

  predicate OccursAt(hay: string, needle: string, k: int)
  {
    0 <= k <= |hay| - |needle| && hay[k..k + |needle|] == needle
  }

  /** ASCII lower-casing, the case folding of a case-insensitive match. */
  function LowerChar(c: char): char
  {
    if 'A' <= c <= 'Z' then (c as int - 'A' as int + 'a' as int) as char else c
  }

  function Lower(s: string): (r: string)
    ensures |r| == |s|
    ensures forall k :: 0 <= k < |s| ==> r[k] == LowerChar(s[k])
  {
    seq(|s|, k requires 0 <= k < |s| => LowerChar(s[k]))
  }

  /** Lexicographic order on strings by Unicode code point, the order a
      database index sorts string fields by. */
  predicate StrLe(a: string, b: string)
  {
    |a| == 0 || (|b| > 0 && (a[0] < b[0] || (a[0] == b[0] && StrLe(a[1..], b[1..]))))
  }

  lemma {:induction false} StrLeTotal(a: string, b: string)
    ensures StrLe(a, b) || StrLe(b, a)
  {
    if |a| > 0 && |b| > 0 && a[0] == b[0] {
      StrLeTotal(a[1..], b[1..]);
    }
  }

  lemma {:induction false} StrLeTransitive(a: string, b: string, c: string)
    requires StrLe(a, b) && StrLe(b, c)
    ensures StrLe(a, c)
  {
    if |a| > 0 && a[0] == b[0] && b[0] == c[0] {
      StrLeTransitive(a[1..], b[1..], c[1..]);
    }
  }
}

=== FILE: sorting.dfy ===
/** Sorting a query result by a key order, as a database `sort` does.
    The order is any total preorder; ties keep no particular promise. */
module Sorting {

  ghost predicate TotalPreorder<T(!new)>(le: (T, T) -> bool)
  {
    && (forall a, b :: le(a, b) || le(b, a))
    && (forall a, b, c :: le(a, b) && le(b, c) ==> le(a, c))
  }

  ghost predicate Sorted<T>(xs: seq<T>, le: (T, T) -> bool)
  {
    forall i, j :: 0 <= i < j < |xs| ==> le(xs[i], xs[j])
  }

  /** Inserts `x` into the sorted `xs` before the first element it precedes. */
  function Insert<T(!new)>(x: T, xs: seq<T>, le: (T, T) -> bool): (r: seq<T>)
    requires TotalPreorder(le)
    requires Sorted(xs, le)
    ensures multiset(r) == multiset(xs) + multiset{x}
    ensures Sorted(r, le)
  {
    if |xs| == 0 then [x]
    else if le(x, xs[0]) then [x] + xs
    else
      var rest := Insert(x, xs[1..], le);
      assert xs == [xs[0]] + xs[1..];
      assert forall k :: 0 <= k < |rest| ==> le(xs[0], rest[k]) by {
        forall k | 0 <= k < |rest|
          ensures le(xs[0], rest[k])
        {
          assert rest[k] in multiset(rest);
          if rest[k] != x {
            assert rest[k] in multiset(xs[1..]);
          }
        }
      }
      [xs[0]] + rest
  }

  /** `xs` rearranged into `le` order. */
  function Sort<T(!new)>(xs: seq<T>, le: (T, T) -> bool): (r: seq<T>)
    requires TotalPreorder(le)
    ensures multiset(r) == multiset(xs)
    ensures Sorted(r, le)
  {
    if |xs| == 0 then []
    else
      assert xs == [xs[0]] + xs[1..];
      Insert(xs[0], Sort(xs[1..], le), le)
  }

  /** In a sorted sequence, everything in the first `k` places precedes
      everything left out of them. */
  lemma PrefixPrecedesRest<T(!new)>(xs: seq<T>, le: (T, T) -> bool, k: nat)
    requires Sorted(xs, le)
    requires k <= |xs|
    ensures multiset(xs[..k]) + multiset(xs[k..]) == multiset(xs)
    ensures forall y, x :: y in xs[..k] && x in multiset(xs) - multiset(xs[..k]) ==> le(y, x)
  {
    assert xs == xs[..k] + xs[k..];
    forall y, x | y in xs[..k] && x in multiset(xs) - multiset(xs[..k])
      ensures le(y, x)
    {
      assert x in multiset(xs[k..]);
      assert x in xs[k..];
      var i :| 0 <= i < k && xs[i] == y;
      var j :| 0 <= j < |xs| - k && xs[k..][j] == x;
      assert xs[k + j] == x;
    }
  }
}

=== FILE: store.dfy ===
/** The two collections the reservation logic works on, lookups by id, and
    the consistency invariant that ties a table's status to the reservations
    bound to it. */
module Store {
  import opened Common
  import opened Seqs
  import opened Schema

  /** The tables and reservations collections, each in storage order, and
      the id source. Every id handed out so far is below `issued`, and a new
      document takes `issued` itself: like an ObjectId, an id is never handed
      out twice, even after its document is deleted. */
  datatype Db = Db(tables: seq<Table>, reservations: seq<Reservation>, issued: Id)

  /** `findById` on the tables collection. */
  function TableAt(ts: seq<Table>, id: Id): Option<nat>
  {
    FirstWithId(ts, (t: Table) => t.id, id)
  }

  /** `findById` on the reservations collection. */
  function ReservationAt(rs: seq<Reservation>, id: Id): Option<nat>
  {
    FirstWithId(rs, (r: Reservation) => r.id, id)
  }

  predicate Active(r: Reservation)
  {
    r.status != Cancelled
  }

  /** `r` is a non-cancelled reservation bound to table `tid`. */
  predicate Holds(r: Reservation, tid: Id)
  {
    Active(r) && r.table == Some(tid)
  }

  /** The number of non-cancelled reservations bound to table `tid`. */
  function Holders(rs: seq<Reservation>, tid: Id): nat
  {
    if |rs| == 0 then 0
    else (if Holds(rs[0], tid) then 1 else 0) + Holders(rs[1..], tid)
  }

  /** A table is `reserved` exactly when one non-cancelled reservation is
      bound to it, and never more than one is. */
  predicate Agrees(rs: seq<Reservation>, t: Table)
  {
    Holders(rs, t.id) <= 1 && (t.status == Reserved <==> Holders(rs, t.id) == 1)
  }

  /** Every stored id came from the id source. */
  predicate IdsIssued(db: Db)
  {
    && (forall k :: 0 <= k < |db.tables| ==> db.tables[k].id < db.issued)
    && (forall k :: 0 <= k < |db.reservations| ==> db.reservations[k].id < db.issued)
  }

  /** Every table a reservation is bound to has an id the source handed out. */
  predicate BindingsIssued(db: Db)
  {
    forall k :: 0 <= k < |db.reservations| && db.reservations[k].table.Some? ==> db.reservations[k].table.value < db.issued
  }

  predicate Consistent(db: Db)
  {
    && IdsIssued(db)
    && DistinctTableIds(db.tables)
    && DistinctReservationIds(db.reservations)
    && forall i :: 0 <= i < |db.tables| ==> Agrees(db.reservations, db.tables[i])
  }

  /** `findByIdAndUpdate(tid, {status})`: every table with id `tid` gets the
      status, every other table is untouched; a missing id changes nothing. */
  function SetStatus(ts: seq<Table>, tid: Id, st: TableStatus): (r: seq<Table>)
    ensures |r| == |ts|
    ensures forall k :: 0 <= k < |ts| && ts[k].id == tid ==> r[k] == ts[k].(status := st)
    ensures forall k :: 0 <= k < |ts| && ts[k].id != tid ==> r[k] == ts[k]
  {
    seq(|ts|, k requires 0 <= k < |ts| => if ts[k].id == tid then ts[k].(status := st) else ts[k])
  }

  lemma {:induction false} HoldersAppend(rs: seq<Reservation>, r: Reservation, tid: Id)
    ensures Holders(rs + [r], tid) == Holders(rs, tid) + (if Holds(r, tid) then 1 else 0)
  {
    if |rs| > 0 {
      assert (rs + [r])[1..] == rs[1..] + [r];
      HoldersAppend(rs[1..], r, tid);
    }
  }

  lemma {:induction false} HoldersUpdate(rs: seq<Reservation>, i: nat, r: Reservation, tid: Id)
    requires i < |rs|
    ensures Holders(rs[i := r], tid)
         == Holders(rs, tid) - (if Holds(rs[i], tid) then 1 else 0) + (if Holds(r, tid) then 1 else 0)
  {
    if i > 0 {
      assert rs[i := r][1..] == rs[1..][i - 1 := r];
      HoldersUpdate(rs[1..], i - 1, r, tid);
    } else {
      assert rs[i := r][1..] == rs[1..];
    }
  }

  lemma {:induction false} HoldersRemove(rs: seq<Reservation>, i: nat, tid: Id)
    requires i < |rs|
    ensures Holders(RemoveAt(rs, i), tid) == Holders(rs, tid) - (if Holds(rs[i], tid) then 1 else 0)
  {
    if i > 0 {
      assert RemoveAt(rs, i)[1..] == RemoveAt(rs[1..], i - 1);
      HoldersRemove(rs[1..], i - 1, tid);
    } else {
      assert RemoveAt(rs, i) == rs[1..];
    }
  }

  /** A reservation holding `tid` is among its holders. */
  lemma {:induction false} HolderCounted(rs: seq<Reservation>, i: nat, tid: Id)
    requires i < |rs| && Holds(rs[i], tid)
    ensures Holders(rs, tid) >= 1
  {
    if i > 0 {
      HolderCounted(rs[1..], i - 1, tid);
    }
  }

  /** No reservation holds the table, so it has no holder. */
  lemma {:induction false} NoHolders(rs: seq<Reservation>, tid: Id)
    requires forall k :: 0 <= k < |rs| ==> !Holds(rs[k], tid)
    ensures Holders(rs, tid) == 0
  {
    if |rs| > 0 {
      NoHolders(rs[1..], tid);
    }
  }
}
